=== FILE: README.md ===
# Archive subsystem of `utils/util.go`, over an abstract filesystem

This project models the archive helpers of the `utils` package: the probes
`FileExists`, `GetFileSize`, `IsSymbolLink`, `IsDir` and `GetFilesInDir`,
the packer `Tar`, the extraction engine `traversePackagedFile` and its three
front-ends `UnTar`, `DeCompressGzip` and `DeCompressBzip2`.

Everything runs against an immutable abstract filesystem (`FileSystem`). It
is a map from absolute paths, written as sequences of segments, to nodes that
are a directory, a regular file (content and mode) or a symbolic link
(target). A name a program passes to the `os` package (`Name`) is either
absolute or relative to the process's working directory. The Go `os` calls that the code makes become functions over that
map: `Stat`, `Lstat`, `Mkdir`, `MkdirAll`, `OpenFile` with create-and-truncate
(`WriteFile`), `Create` (`CreateArchive`), `Symlink` and `Chmod`. Links are
resolved component by component, the way the kernel does it:

- a link in the middle of a path is always followed;
- a link in the last position is followed by `Stat` and not by `Lstat`;
- more than 40 followed links give `ELOOP`.

A mutating step returns an `Outcome`: the new filesystem together with
success or an error. A failure keeps the effects that came before it,
because the Go code never rolls anything back.

Modules:

- `FileSystem`: nodes, paths, well-formedness, path lookup and the `os`
  operations. It also holds lemmas about lookups and about `MkdirAll` on
  paths without links.
- `Lexical` and `Walk`: `filepath.Walk`. It is a depth-first pre-order
  traversal in sorted name order that never follows links.
- `Probes`: the five query functions.
- `Extraction`: `traversePackagedFile`. It is a fold of the archive's
  entries over the filesystem that stops at the first failure.
- `Unpack`: the shared checks of the three front-ends, with the decoder as
  a parameter.
- `Pack`: `Tar`. It creates the archive file, then walks the inputs; the
  archive it writes is the sequence of entries the walk produces. A walk
  that reaches the archive file stops right after the archive's own entry.
- `RoundTrip`: packing a tree with no links below the working directory and
  extracting it into an empty directory reproduces the tree there when the
  archive file lies outside the tree, and reproduces the part walked before
  the archive file when it lies inside.

The model follows the code where the code and its documentation disagree:

- A symbolic-link entry over an existing object is not a no-op. `os.Symlink`
  fails and its error is ignored. The `os.Chmod` that follows still follows
  the path, so it changes the existing object's mode. Its kind and content
  stay.
- A regular-file entry over an existing file keeps that file's mode, since
  `OpenFile` applies the mode only when it creates the file. The content is
  replaced.
- `GetFilesInDir` lists every object that `Lstat` does not report as a
  directory, so links are listed too, including links to directories. A
  `dir_path` that is itself a link is listed as that single path and is not
  descended into.
- `Tar` skips an input that `Lstat` cannot find, because `filepath.Walk`'s
  error is discarded. `Tar` then still succeeds.
- A walk that reaches the archive file ends there. The archive's header is
  sized by `Lstat` before the header itself is written, so copying the file
  into its own entry always writes too much; `io.Copy` returns
  `tar.ErrWriteTooLong`, the callback returns it and `filepath.Walk` stops
  that input. `Tar` still returns `nil`, and later inputs are walked, since
  that error does not stick to the tar writer.

## Model

| member | source | states |
|---|---|---|
| Probes.FileExists | utils/util.go:23-26 | true exactly when `Stat` finds an object; on a path without links, existence is membership in the filesystem |
| Probes.FileExistsDanglingLink | utils/util.go:23-26 | a link whose target is missing does not exist, although `Lstat` still reports the link |
| Probes.GetFileSize | utils/util.go:37-46 | an error naming the path exactly when the path does not exist; otherwise the byte count of the file the path reaches |
| Probes.GetFileSizePlain | utils/util.go:37-46 | an absent path gives the not-exists error; a present file gives its length |
| Probes.IsSymbolLink | utils/util.go:57-64 | fails exactly when `Lstat` fails, wrapping `Lstat`'s error; otherwise the lookup without following the last link reaches an object and the answer is whether that object's node is a link; for an object of the filesystem, whether its own node is a link; an absent path without links is an error |
| Probes.IsDir | utils/util.go:75-81 | true exactly when `Stat` succeeds and finds a directory; every failure reads as false; on a path without links, true exactly when it is present and a directory |
| Probes.GetFilesInDir | utils/util.go:382-402 | fails exactly when the directory does not exist; on success a path is listed exactly when it is the directory's path joined with the relative path of a non-directory at or below the object `Lstat` finds; no path is listed twice |
| Probes.GetFilesInDirKey | utils/util.go:382-402 | listing an object by its own path gives exactly the non-directories at or below it |
| Probes.GetFilesInDirLstat | utils/util.go:388-398 | every listed path can be `Lstat`ed and is not a directory there |
| Probes.GetFilesInDirLink | utils/util.go:382-402 | a link whose target exists is listed as itself, even when it points at a directory |
| FileSystem.MkdirAll | utils/util.go:104-107 | new objects are directories with the given mode; old objects keep their nodes; on success `Stat` finds a directory |
| FileSystem.MkdirAllPlain | utils/util.go:104-107 | on a path without links whose existing prefixes are directories, it succeeds, every prefix ends up a directory, and only prefixes of the path are added |
| FileSystem.MkdirAllFresh | utils/util.go:104-107 | a missing path inside an existing directory gets exactly one new directory |
| FileSystem.WriteFile | utils/util.go:118-127 | fails exactly when the lookup fails or reaches a directory; on success `Stat` finds a file holding exactly the content, and no object changes kind |
| FileSystem.MakeSymlink | utils/util.go:130 | succeeds exactly when the lookup ends at a free slot, and then adds only the link there |
| FileSystem.Chmod | utils/util.go:131 | succeeds exactly when the path, links followed, reaches an object, and then only that object changes, to the same node with the new mode; otherwise fails with the lookup's error and the path; no kind changes |
| Extraction.ExtractDirectory | utils/util.go:102-109 | an existing path (of any kind) leaves everything unchanged; otherwise, on success, it is a directory; only directories with the entry's mode are added |
| Extraction.DirectoryFresh | utils/util.go:102-109 | a missing path inside an existing directory gets exactly one new directory with the entry's mode |
| Extraction.DirectoryPlain | utils/util.go:102-109 | the path and all its missing ancestors become directories, and nothing is added off the path |
| Extraction.DirectoriesGrow | utils/util.go:102-109 | directory entries change no object's kind and every object they add is a directory; after success every entry's path exists |
| Extraction.DirectoriesIdempotent | utils/util.go:102-109 | extracting the same directory entries a second time changes nothing |
| Extraction.ExtractRegular | utils/util.go:110-128 | on success `Stat` of the path finds a file holding exactly the entry's content; a directory at the path (with its parent present) fails with `EISDIR` and changes nothing; every directory it adds has mode 0775; apart from one object, it keeps every old object and adds only such directories; when the parent exists, only the object `Stat` of the path reaches is written |
| Extraction.RegularPlain | utils/util.go:110-128 | inside an existing directory, a directory at the path fails; otherwise the path becomes a file with the content and with the old file's mode or the entry's mode |
| Extraction.RegularMissingParent | utils/util.go:111-128 | a missing parent is created with all its ancestors, each a directory with mode 0775, then a new file with the entry's content and mode; nothing is added off the path |
| Extraction.RegularUnderFile | utils/util.go:118-121 | when the parent is a file, the entry fails and changes nothing |
| Extraction.ExtractSymlink | utils/util.go:129-132 | never fails; the only new object is the link, at the place `Lstat` finds for the path; existing objects keep their kind and content; at most one of them changes, and only in mode |
| Extraction.SymlinkOverExisting | utils/util.go:129-132 | over an existing non-link object, only that object's mode changes |
| Extraction.SymlinkFresh | utils/util.go:129-132 | at a free slot, the link is created and the `Chmod` lands on its target |
| Extraction.ApplyEntry | utils/util.go:102-133 | entries of other kinds change nothing; link entries never fail; no entry changes the kind of an existing object |
| Extraction.ApplyAllAppend | utils/util.go:93-96 | extraction stops at the first failure and applies no later entry; otherwise the rest continues from the state it left |
| Extraction.OthersSkipped | utils/util.go:129-134 | a run of entries of other kinds leaves the filesystem unchanged and succeeds |
| Extraction.TraversePackagedFile | utils/util.go:92-136 | at the end of the archive, exactly the outcome of applying the entries in order; after a read error, the same effects with the read error reported when the entries succeeded and the entries' own failure otherwise |
| Extraction.ApplyAll | utils/util.go:93-134 | applying entries in order keeps the filesystem well-formed and removes no object and changes no object's kind |
| Unpack.PrepareDestination | utils/util.go:232-249 | an existing directory is kept; an existing non-directory is an error; a missing one is created with mode 0755, and a failure is wrapped; any other `Stat` error is returned |
| Unpack.PrepareDestinationPlain | utils/util.go:239-245 | when every existing prefix of the destination is a directory, preparing it succeeds and leaves every prefix a directory |
| Unpack.ReadArchive | utils/util.go:251-258 | a file's bytes are its content; reading a directory fails with `EISDIR` |
| Unpack.Unpack | utils/util.go:226-259 | a missing archive fails and changes nothing; a failed preparation of the destination is the result; once the destination is prepared (kept or created), the result is the decoder's error or exactly the extraction of the decoded entries into the prepared filesystem; success implies the destination is a directory |
| Unpack.UnTar | utils/util.go:226-259 | the same checks and outcomes; after preparation, exactly the extraction of the plain tar reader's stream |
| Unpack.DeCompressGzip | utils/util.go:270-308 | the same checks and outcomes; after preparation, the gzip reader's error or exactly the extraction of its stream |
| Unpack.DeCompressBzip2 | utils/util.go:319-353 | the same checks and outcomes; after preparation, exactly the extraction of the bzip2 reader's stream |
| Unpack.UnpackReady | utils/util.go:251-258 | with an archive file and a destination directory present, unpacking is exactly extracting the decoded stream |
| Unpack.GzipHeaderRejected | utils/util.go:301-304 | a rejected gzip header fails with no effect beyond preparing the destination |
| Unpack.FormatsAgree | utils/util.go:301-307 | decoders that deliver the same entries give the same outcome in all three front-ends |
| Unpack.ArchiveIsDirectory | utils/util.go:251-258 | a directory given as the archive fails after the destination is prepared |
| Unpack.DestinationSurvives | utils/util.go:232-258 | once the destination is prepared, it is still a directory afterwards, even when extraction fails |
| Pack.HeaderOf | utils/util.go:180-199 | the entry carries the walk path as its name; directories, files and links keep their kind; a link carries its target and mode 0777; only files carry content |
| Pack.WalkInput | utils/util.go:179-183 | an input `Lstat` cannot find, absolute or relative to the working directory, writes nothing; otherwise the first entry describes the input itself |
| Pack.UntilArchive | utils/util.go:201-207 | the walk is cut to a prefix of itself; no path before the last reaches the archive file; either nothing is cut or the last path kept is the archive file |
| Pack.WalkInputCut | utils/util.go:179-213 | an input's entries are a prefix of the entries of everything at or below it; when the archive file lies there, they end with the archive's own entry and no earlier entry carries its name; otherwise nothing is cut |
| Pack.WalkInputExactly | utils/util.go:179-213 | every entry is the header of an object at or below the input, under the walk's name for it, and no two entries share a name; when the archive file does not lie below the input, every such object has its entry |
| Pack.WalkInputPreOrder | utils/util.go:179-213 | also when cut at the archive file, every entry after the first is preceded by a directory entry named by its parent; the names come in walk order (`Walk.Before`), so the entries below any entry follow it as one contiguous block |
| Pack.CreateArchive | utils/util.go:172-175 | fails exactly when the name, absolute or relative to the working directory, fails to resolve or names a directory; otherwise it returns the object the name reaches, now an empty file (mode 0666 when new), and no other object changes |
| Pack.Tar | utils/util.go:149-215 | needs a directory at both `current_dir` and `work_dir` for `Stat`, each failure with its specific error; then a failed create is the error, and otherwise the result is the filesystem holding the created archive file and the entries of the inputs' walks over that filesystem, each walk cut at the archive file |
| Pack.WalkInputs | utils/util.go:211-213 | no inputs give no entries; a single input gives exactly its walk's entries |
| Pack.WalkInputsAppend | utils/util.go:211-213 | the inputs are packed in order, one after another; a walk cut at the archive file does not stop the inputs after it |
| Pack.TarSkipsMissing | utils/util.go:179-214 | an input that `Lstat` cannot find is skipped without an error |
| Walk.Walk | utils/util.go:211-213 | the input itself first; every later path has its parent earlier; no path twice; every path names an object |
| Walk.WalkSorted | utils/util.go:211-213 | each path comes before every later one in `Before`'s order: a prefix first, otherwise the smaller name at the first segment where they differ |
| Walk.WalkOrder | utils/util.go:211-213 | depth first: whatever lies between a path and one below it lies below it too; where two paths first differ, the earlier one has the smaller name there |
| Walk.WalkUnique | utils/util.go:211-213 | any sorted sequence, without repeats, of exactly the objects at or below the start is the walk |
| Walk.WalkExactly | utils/util.go:211-213 | a path is visited exactly when it names an object at or below the root |
| RoundTrip.RoundTrip | utils/util.go:149-215 | a tree with no links below the working directory, packed with input "." into an archive file outside it (named absolutely or relatively) and extracted into an empty directory, reappears there node for node exactly as it was before packing; nothing outside the destination changes |
| RoundTrip.RoundTripCut | utils/util.go:149-215 | when the archive file lies inside the tree, the last entry is the archive's own, and extraction copies exactly the objects whose entries were written, each as the walk saw it; nothing outside the destination changes |
| RoundTrip.ExtractWalk | utils/util.go:92-136 | extracting the walk of a link-free tree into an empty directory succeeds and copies the tree below it, leaving everything else as it was |
| RoundTrip.ExtractWalkPrefix | utils/util.go:92-136 | extracting the entries of a leading part of such a walk copies exactly the objects of that part and leaves everything else as it was |
| RoundTrip.PackedLinkChmodsTarget | utils/util.go:129-132 | a packed link extracted at a free slot sets mode 0777 on its existing target, wherever that lies |

## Left out

- Real I/O is not modelled: file handles, `Close`, and `Chdir` together with its deferred return. `Tar` computes names relative to the working directory instead of changing into it.
- Pack.Tar: the archive file is empty in the filesystem the walk sees, so the archive's own last entry carries no content, while in Go that entry's header announces the bytes written so far and a body may be partly written before `tar.ErrWriteTooLong` stops the walk. The `os.Create` errors are reduced to a failed lookup and a directory; the empty name is not modelled (`Relative([])` stands for ".").
- Extraction.TraversePackagedFile: the archive's bytes are decoded once, before extraction, so an entry that overwrites or truncates the archive file itself (when it lies below the destination) does not change the entries read after it, as it could in Go.
- RoundTrip.RoundTrip: trees with links below the working directory are not covered, because an extracted link's `Chmod` changes the mode of its target (see `PackedLinkChmodsTarget`); only the single input "." is covered, not a list of inputs. An archive file inside the tree is covered by `RoundTripCut`, which promises a copy of the part walked before it rather than of the whole tree.
- The tar, gzip and bzip2 codecs belong to Go's standard library. Each front-end takes its decoder as a parameter that turns the archive's bytes into the stream of entries, or an error. A failure while copying a file's body is modelled as a read error right after that entry. A hard-link entry reaches the extractor as a regular entry with empty content, which is how the tar reader reports its mode.
- Umask and the meaning of permission bits are not modelled: a mode is an opaque number carried on nodes.
- `filepath.Join` cleaning and `..` segments are not modelled: names are clean segment sequences. `Tar`'s inputs and archive name may be absolute or relative to `work_dir`; every other path, `current_dir` and `work_dir` included, is absolute, so `filepath.Abs` in `GetFilesInDir` is the identity.
- Link targets are absolute paths; a relative target text is not modelled.
- Sockets, devices and pipes have no node kind. Archive entries of those kinds are modelled (`OtherEntry`) and skipped.
- Probes.GetFileSize: a directory's size is reported as 0, while Go reports a size that depends on the filesystem. The second `os.Stat` in `GetFileSize` is folded into the first, because nothing can change in between.
- `os.IsExist` of a `Stat` error is never true, so the branches that test it reduce to `err == nil`.
- In `Tar`'s walk callback, the `err` that is checked after `WriteHeader` is the one from `FileInfoHeader`, so a failed header write would go unnoticed. Writing to the archive cannot fail in this model, so this makes no difference to it.
- Concurrent changes to the filesystem while a function runs are not modelled.
- `GetFileModifyTime` (it reads the clock) and `GetInfoMap` (it writes into a nil map) are not part of this model. Neither are the HTTP handlers, the server entry point or the fixture programs.

=== FILE: extraction.dfy ===
/**
 `traversePackagedFile` of `utils/util.go`: replays the entries of an archive
 into a destination directory.

 An archive reaches the extractor as a `Stream`: the entries the tar reader
 hands out one by one, then how the reader stopped, at the end of the
 archive or with a read error. Each entry is placed at `dst + name`; what is
 done depends on the kind its header reports:

 - a directory is created with the entry's mode (and parents as needed),
   unless something already exists there;
 - a regular file is created or truncated and filled with the entry's
   content; a missing parent directory is created first with mode 0775;
 - a symbolic link is created, then `os.Chmod` is applied to its path with
   the entry's mode; both results are ignored;
 - any other kind is skipped.

 The first failing step ends the extraction with its error and keeps every
 effect that came before it.
 */
module Extraction {
  import opened FileSystem
  import Probes

  /** 0775, the mode of a regular file's missing parent directory. */
  const DefaultParentMode: Mode := 0x1FD

  datatype Kind =
    | DirEntry
    | RegularEntry(content: Bytes)
    | SymlinkEntry(target: Path)
    | OtherEntry                  // devices, pipes and other special files

  /** A tar header with the data that follows it. */
  datatype Entry = Entry(name: Path, mode: Mode, kind: Kind)

  datatype StreamEnd = EndOfArchive | ReadError(error: Error)

  datatype Stream = Stream(entries: seq<Entry>, end: StreamEnd)

  /** A directory entry: nothing happens when `FileExists` already holds
      (whatever kind of object is there), otherwise `MkdirAll` with the
      entry's mode. */
  function ExtractDirectory(fs: FS, path: Path, mode: Mode): (r: Outcome)
    requires WF(fs)
    ensures WF(r.fs) && AddsDirs(fs, r.fs, mode) && KindsKept(fs, r.fs)
    ensures Probes.FileExists(fs, path) ==> r == Outcome(fs, Success)
    ensures !Probes.FileExists(fs, path) && r.status.Success? ==> Probes.IsDir(r.fs, path)
    ensures r.status.Success? ==> Probes.FileExists(r.fs, path)
  {
    if Probes.FileExists(fs, path) then Outcome(fs, Success) else MkdirAll(fs, path, mode)
  }

  /** `fs'` keeps every object of `fs` except perhaps the one at `c`. */
  ghost predicate KeepsAllBut(fs: FS, fs': FS, c: Path)
  {
    forall k :: k in fs && k != c ==> k in fs' && fs'[k] == fs[k]
  }

  /** `fs'` keeps every object of `fs` except perhaps the one at `c`, and
      whatever it adds elsewhere is a directory of mode `mode`. */
  ghost predicate ChangedAt(fs: FS, fs': FS, c: Path, mode: Mode)
  {
    && KeepsAllBut(fs, fs', c)
    && forall k :: k in fs' && k !in fs && k != c ==> fs'[k] == Dir(mode)
  }

  /** A regular-file entry: make sure the parent exists, then create or
      truncate the file and copy the content into it. */
  function ExtractRegular(fs: FS, path: Path, content: Bytes, mode: Mode): (r: Outcome)
    requires WF(fs)
    ensures WF(r.fs) && KindsKept(fs, r.fs)
    ensures r.status.Success? ==>
              Stat(r.fs, path).Ok? && Stat(r.fs, path).value.File? && Stat(r.fs, path).value.content == content
    ensures Probes.FileExists(fs, Parent(path)) && Probes.IsDir(fs, path) ==>
              r == Outcome(fs, Failure(PathError(path, EISDIR)))
    ensures forall k :: k in r.fs && k !in fs && r.fs[k].Dir? ==> r.fs[k] == Dir(DefaultParentMode)
    ensures exists c :: ChangedAt(fs, r.fs, c, DefaultParentMode)
    ensures Probes.FileExists(fs, Parent(path)) && r.status.Success? ==>
              var l := Resolve(fs, path, true);
              l.Ok? && l.value in r.fs && r.fs == fs[l.value := r.fs[l.value]]
  {
    var o := if Probes.FileExists(fs, Parent(path)) then Outcome(fs, Success)
             else MkdirAll(fs, Parent(path), DefaultParentMode);
    assert ChangedAt(fs, o.fs, path, DefaultParentMode);
    if o.status.Failure? then o
    else
      match WriteFile(o.fs, path, content, mode)
      case Err(e) => Outcome(o.fs, Failure(e))
      case Ok(fs') =>
        var c := Resolve(o.fs, path, true).value;
        assert ChangedAt(fs, fs', c, DefaultParentMode);
        Outcome(fs', Success)
  }

  /** A symbolic-link entry: `os.Symlink` then `os.Chmod`, both results
      ignored, so the entry never fails. The chmod follows the link. The only
      object added is the link, where `Lstat` looks for `path`; the only old
      object that may change is the one the chmod reaches. */
  function ExtractSymlink(fs: FS, path: Path, target: Path, mode: Mode): (r: Outcome)
    requires WF(fs)
    ensures WF(r.fs) && KindsKept(fs, r.fs) && r.status == Success
    ensures fs.Keys <= r.fs.Keys
    ensures forall k :: k in fs ==> r.fs[k] == fs[k] || r.fs[k] == WithMode(fs[k], mode)
    ensures forall k :: k in r.fs && k !in fs ==> r.fs[k] == Symlink(target)
    ensures forall k :: k in r.fs && k !in fs ==> Resolve(fs, path, false) == Ok(k)
    ensures exists c :: KeepsAllBut(fs, r.fs, c)
  {
    var fs1 := match MakeSymlink(fs, target, path) case Ok(f) => f case Err(_) => fs;
    var fs2 := match Chmod(fs1, path, mode) case Ok(f) => f case Err(_) => fs1;
    KindsKeptTransitive(fs, fs1, fs2);
    var c := if Chmod(fs1, path, mode).Ok? then Resolve(fs1, path, true).value else path;
    assert KeepsAllBut(fs, fs2, c);
    Outcome(fs2, Success)
  }

  /** One entry, placed below `dst`. */
  function ApplyEntry(fs: FS, dst: Path, e: Entry): (r: Outcome)
    requires WF(fs)
    ensures WF(r.fs) && KindsKept(fs, r.fs)
    ensures e.kind.OtherEntry? ==> r == Outcome(fs, Success)
    ensures e.kind.SymlinkEntry? ==> r.status.Success?
  {
    var path := dst + e.name;
    match e.kind
    case DirEntry => ExtractDirectory(fs, path, e.mode)
    case RegularEntry(content) => ExtractRegular(fs, path, content, e.mode)
    case SymlinkEntry(target) => ExtractSymlink(fs, path, target, e.mode)
    case OtherEntry => Outcome(fs, Success)
  }

  /** The entries in order, stopping at the first failure. */
  function ApplyAll(fs: FS, dst: Path, es: seq<Entry>): (r: Outcome)
    requires WF(fs)
    ensures WF(r.fs) && KindsKept(fs, r.fs)
    decreases |es|
  {
    if es == [] then Outcome(fs, Success)
    else
      var o := ApplyEntry(fs, dst, es[0]);
      if o.status.Failure? then o
      else
        var rest := ApplyAll(o.fs, dst, es[1..]);
        KindsKeptTransitive(fs, o.fs, rest.fs);
        rest
  }

  /** `traversePackagedFile`: every entry, then the reader's verdict. A read
      error is reported only once every entry before it went through. */
  function TraversePackagedFile(fs: FS, dst: Path, s: Stream): (r: Outcome)
    requires WF(fs)
    ensures WF(r.fs) && KindsKept(fs, r.fs)
    ensures r.status.Success? ==> s.end == EndOfArchive
    ensures r.fs == ApplyAll(fs, dst, s.entries).fs
    ensures s.end == EndOfArchive ==> r == ApplyAll(fs, dst, s.entries)
    ensures s.end.ReadError? ==>
              var o := ApplyAll(fs, dst, s.entries);
              r.status == if o.status.Success? then Failure(s.end.error) else o.status
  {
    var o := ApplyAll(fs, dst, s.entries);
    if o.status.Failure? then o
    else
      match s.end
      case EndOfArchive => o
      case ReadError(e) => Outcome(o.fs, Failure(e))
  }

  /** Extracting `a + b` is extracting `a`, then `b` from where `a` left the
      filesystem, unless `a` already failed. */
  lemma {:induction false} ApplyAllAppend(fs: FS, dst: Path, a: seq<Entry>, b: seq<Entry>)
    requires WF(fs)
    ensures var o := ApplyAll(fs, dst, a);
            ApplyAll(fs, dst, a + b) == if o.status.Failure? then o else ApplyAll(o.fs, dst, b)
    decreases |a|
  {
    if a == [] {
      assert a + b == b;
    } else {
      assert (a + b)[0] == a[0] && (a + b)[1..] == a[1..] + b;
      var o := ApplyEntry(fs, dst, a[0]);
      if o.status.Success? {
        ApplyAllAppend(o.fs, dst, a[1..], b);
      }
    }
  }

  /** Entries of other kinds are skipped. */
  lemma {:induction false} OthersSkipped(fs: FS, dst: Path, es: seq<Entry>)
    requires WF(fs)
    requires forall i :: 0 <= i < |es| ==> es[i].kind.OtherEntry?
    ensures ApplyAll(fs, dst, es) == Outcome(fs, Success)
    decreases |es|
  {
    if es != [] {
      OthersSkipped(fs, dst, es[1..]);
    }
  }

  /** Directory entries only add directories, and every one of them leaves
      something in place at its path. */
  lemma {:induction false} DirectoriesGrow(fs: FS, dst: Path, es: seq<Entry>)
    requires WF(fs)
    requires forall i :: 0 <= i < |es| ==> es[i].kind.DirEntry?
    ensures KindsKept(fs, ApplyAll(fs, dst, es).fs)
    ensures ApplyAll(fs, dst, es).status.Success? ==>
              forall i :: 0 <= i < |es| ==> Probes.FileExists(ApplyAll(fs, dst, es).fs, dst + es[i].name)
    ensures var r := ApplyAll(fs, dst, es);
            forall k :: k in r.fs && k !in fs ==> r.fs[k].Dir?
    decreases |es|
  {
    if es != [] {
      var o := ApplyEntry(fs, dst, es[0]);
      if o.status.Success? {
        DirectoriesGrow(o.fs, dst, es[1..]);
        var r := ApplyAll(o.fs, dst, es[1..]);
        forall k | k in r.fs && k !in fs
          ensures r.fs[k].Dir?
        {
          if k in o.fs {
            assert o.fs[k].Dir? && Compatible(o.fs[k], r.fs[k]);
          }
        }
        if r.status.Success? {
          StatKept(o.fs, r.fs, dst + es[0].name);
          forall i | 0 < i < |es|
            ensures Probes.FileExists(r.fs, dst + es[i].name)
          {
            assert es[i] == es[1..][i - 1];
          }
        }
      }
    }
  }

  /** Entries whose paths all exist change nothing when they are directories. */
  lemma {:induction false} ExistingDirectoriesSkipped(fs: FS, dst: Path, es: seq<Entry>)
    requires WF(fs)
    requires forall i :: 0 <= i < |es| ==> es[i].kind.DirEntry? && Probes.FileExists(fs, dst + es[i].name)
    ensures ApplyAll(fs, dst, es) == Outcome(fs, Success)
    decreases |es|
  {
    if es != [] {
      ExistingDirectoriesSkipped(fs, dst, es[1..]);
    }
  }

  /** Extracting an archive of directories a second time changes nothing. */
  lemma DirectoriesIdempotent(fs: FS, dst: Path, es: seq<Entry>)
    requires WF(fs)
    requires forall i :: 0 <= i < |es| ==> es[i].kind.DirEntry?
    requires ApplyAll(fs, dst, es).status.Success?
    ensures var once := ApplyAll(fs, dst, es).fs; ApplyAll(once, dst, es) == Outcome(once, Success)
  {
    DirectoriesGrow(fs, dst, es);
    ExistingDirectoriesSkipped(ApplyAll(fs, dst, es).fs, dst, es);
  }

  /** A directory entry for a missing path without links, inside an existing
      directory, creates exactly that directory with the entry's mode. */
  lemma DirectoryFresh(fs: FS, path: Path, mode: Mode)
    requires WF(fs) && Plain(fs, path) && path != [] && path !in fs && IsDirKey(fs, Parent(path))
    ensures ExtractDirectory(fs, path, mode) == Outcome(fs[path := Dir(mode)], Success)
  {
    assert !Probes.FileExists(fs, path) by {
      ResolvePlain(fs, path, true);
    }
    MkdirAllFresh(fs, path, mode);
  }

  /** A directory entry for a path without links whose existing prefixes are
      all directories succeeds, leaves every prefix of the path a directory
      and adds nothing off the path. */
  lemma DirectoryPlain(fs: FS, path: Path, mode: Mode)
    requires WF(fs) && Plain(fs, path) && DirsAlong(fs, path)
    ensures MkdirsAlong(fs, ExtractDirectory(fs, path, mode), path)
  {
    assert path[..|path|] == path;
    ResolvePlain(fs, path, true);
    if Probes.FileExists(fs, path) {
      KeyAncestors(fs, path);
    } else {
      MkdirAllPlain(fs, path, mode);
    }
  }

  /** A regular-file entry whose parent is missing first creates every
      missing ancestor with mode 0775, then a new file with the entry's mode
      and content. */
  lemma RegularMissingParent(fs: FS, path: Path, content: Bytes, mode: Mode)
    requires WF(fs) && Plain(fs, path) && path != [] && Parent(path) !in fs
    requires DirsAlong(fs, Parent(path))
    ensures var r := ExtractRegular(fs, path, content, mode);
            && r.status == Success
            && path in r.fs && r.fs[path] == File(content, mode)
            && (forall i :: 0 <= i < |path| ==> IsDirKey(r.fs, path[..i]))
            && (forall k :: k in r.fs && k !in fs ==> k <= path)
            && (forall k :: k in r.fs && k !in fs && k != path ==> r.fs[k] == Dir(DefaultParentMode))
  {
    var par := Parent(path);
    assert Plain(fs, par) by {
      forall i | 0 <= i <= |par| ensures par[..i] == path[..i] { }
    }
    assert !Probes.FileExists(fs, par) by {
      ResolvePlain(fs, par, true);
    }
    var o := MkdirAll(fs, par, DefaultParentMode);
    assert MkdirsAlong(fs, o, par) by {
      MkdirAllPlain(fs, par, DefaultParentMode);
    }
    assert path !in fs;
    assert IsDirKey(o.fs, par) by {
      assert par[..|par|] == par;
    }
    assert WriteFile(o.fs, path, content, mode) == Ok(o.fs[path := File(content, mode)]) by {
      RegularFreshSlot(fs, o.fs, path);
    }
    forall i | 0 <= i < |path|
      ensures IsDirKey(o.fs, path[..i])
    {
      assert path[..i] == par[..i];
    }
  }

  /** Once only directories were added along the parent, the missing path
      resolves to itself. */
  lemma RegularFreshSlot(fs: FS, fs': FS, path: Path)
    requires WF(fs) && WF(fs') && Plain(fs, path) && path != [] && path !in fs
    requires AddsDirs(fs, fs', DefaultParentMode) && IsDirKey(fs', Parent(path))
    requires forall k :: k in fs' && k !in fs ==> k <= Parent(path)
    ensures path !in fs' && Resolve(fs', path, true) == Ok(path)
  {
    assert |Parent(path)| < |path|;
    assert Plain(fs', path) by {
      forall i | 0 <= i <= |path| && path[..i] in fs'
        ensures !fs'[path[..i]].Symlink?
      {
        if path[..i] !in fs {
          assert fs'[path[..i]] == Dir(DefaultParentMode);
        }
      }
    }
    assert Located(fs', path);
    ResolvePlain(fs', path, true);
  }

  /** On a path without links inside an existing directory, a regular-file
      entry fails on a directory and otherwise leaves exactly a file with the
      entry's content there: a new file gets the entry's mode, an existing
      file keeps its own. */
  lemma RegularPlain(fs: FS, path: Path, content: Bytes, mode: Mode)
    requires WF(fs) && Plain(fs, path) && path != [] && IsDirKey(fs, Parent(path))
    ensures path in fs && fs[path].Dir? ==>
              ExtractRegular(fs, path, content, mode) == Outcome(fs, Failure(PathError(path, EISDIR)))
    ensures !(path in fs && fs[path].Dir?) ==>
              var m := if path in fs && fs[path].File? then fs[path].mode else mode;
              ExtractRegular(fs, path, content, mode) == Outcome(fs[path := File(content, m)], Success)
  {
    StatKey(fs, Parent(path));
    assert Located(fs, path);
    ResolvePlain(fs, path, true);
    if path in fs && fs[path].Dir? {
      StatKey(fs, path);
    }
  }

  /** A regular-file entry whose parent is a file fails and changes nothing. */
  lemma RegularUnderFile(fs: FS, path: Path, content: Bytes, mode: Mode)
    requires WF(fs) && Plain(fs, path) && path != [] && Parent(path) in fs && fs[Parent(path)].File?
    ensures var r := ExtractRegular(fs, path, content, mode); r.fs == fs && r.status.Failure?
  {
    StatKey(fs, Parent(path));
    ResolvePlain(fs, path, true);
  }

  /** A symbolic-link entry over an existing object that is not a link leaves
      its kind and content alone; the chmod changes its mode. */
  lemma SymlinkOverExisting(fs: FS, path: Path, target: Path, mode: Mode)
    requires WF(fs) && path in fs && !fs[path].Symlink?
    ensures ExtractSymlink(fs, path, target, mode) == Outcome(fs[path := WithMode(fs[path], mode)], Success)
  {
    LstatKey(fs, path);
    StatKey(fs, path);
  }

  /** In a filesystem without links, a symbolic-link entry at a free slot to
      an existing object creates the link, and the chmod that follows lands
      on the target: the target takes the entry's mode. */
  lemma SymlinkFresh(fs: FS, path: Path, target: Path, mode: Mode)
    requires WF(fs) && NoLinks(fs) && path != [] && path !in fs && IsDirKey(fs, Parent(path))
    requires target in fs
    ensures ExtractSymlink(fs, path, target, mode) ==
              Outcome(fs[path := Symlink(target)][target := WithMode(fs[target], mode)], Success)
  {
    NoLinksPlain(fs, path);
    assert Located(fs, path);
    ResolvePlain(fs, path, false);
    var fs1 := fs[path := Symlink(target)];
    assert MakeSymlink(fs, target, path) == Ok(fs1);
    FollowLink(fs1, path);
    KeyAncestors(fs, target);
    assert Plain(fs1, [] + target) by {
      assert [] + target == target;
      forall i | 0 <= i <= |target| && target[..i] in fs1
        ensures !fs1[target[..i]].Symlink?
      {
        if i < |target| {
          assert IsDirKey(fs, target[..i]);
        } else {
          assert target[..i] == target;
        }
      }
    }
    ResolvePlainFrom(fs1, [], target, MaxSymlinkHops - 1, true);
    assert [] + target == target;
  }

  lemma ApplyAllSingle(fs: FS, dst: Path, e: Entry)
    requires WF(fs)
    ensures ApplyAll(fs, dst, [e]) == ApplyEntry(fs, dst, e)
  {
    assert [e][1..] == [];
  }

  /** After a successful prefix of the entries, the next entry continues
      from the state the prefix left. */
  lemma ApplyAllSnoc(fs: FS, dst: Path, es: seq<Entry>, i: nat)
    requires WF(fs) && 0 < i <= |es|
    ensures var o := ApplyAll(fs, dst, es[..i - 1]);
            o.status.Success? ==> ApplyAll(fs, dst, es[..i]) == ApplyEntry(o.fs, dst, es[i - 1])
  {
    var o := ApplyAll(fs, dst, es[..i - 1]);
    assert es[..i] == es[..i - 1] + [es[i - 1]];
    ApplyAllAppend(fs, dst, es[..i - 1], [es[i - 1]]);
    ApplyAllSingle(o.fs, dst, es[i - 1]);
  }
}

=== FILE: filesystem.dfy ===
/**
 An abstract POSIX filesystem: the operations of Go's `os` package that the
 archive subsystem relies on (`Stat`, `Lstat`, `Mkdir`, `MkdirAll`,
 `OpenFile` with create-and-truncate, `Symlink`, `Chmod`), stated over an
 immutable map from absolute paths to nodes.

 A path is a sequence of segments read from the root `[]`. Symbolic links
 are resolved component by component, as the kernel does: a link met in the
 middle of a path is always followed, a link in the last position is followed
 by `Stat` and not by `Lstat`, and after `MaxSymlinkHops` followed links the
 lookup fails with `ELOOP`. Link targets are absolute paths.
 */
module FileSystem {

  newtype Byte = x: int | 0 <= x < 256

  type Bytes = seq<Byte>

  /** Permission bits, carried on nodes and never interpreted. */
  type Mode = nat

  type Path = seq<string>

  /** A path as a program passes it to the `os` package: absolute, read from
      the root, or relative, read from the process's working directory. */
  datatype Name = Absolute(path: Path) | Relative(path: Path)

  /** Where the lookup of `n` starts when the working directory is `cwd`. */
  function Base(cwd: Path, n: Name): Path
  {
    if n.Absolute? then [] else cwd
  }

  datatype Node =
    | Dir(mode: Mode)
    | File(content: Bytes, mode: Mode)
    | Symlink(target: Path)

  type FS = map<Path, Node>

  /** The kernel's limit on followed links in one lookup (Linux MAXSYMLINKS). */
  const MaxSymlinkHops: nat := 40

  datatype Errno = ENOENT | ENOTDIR | EEXIST | EISDIR | ELOOP

  /** Every error value the subsystem can return. */
  datatype Error =
    | PathError(path: Path, errno: Errno)     // returned by an `os` call
    | NotExist(path: Path)                    // "... does not exist" / "File(...) not exists."
    | NotADirectory(path: Path)               // "... is not a directory"
    | ExistsNotDirectory(path: Path)          // "... has been exist and is not a directory"
    | MkdirFailed(path: Path, cause: Error)   // "Fail to create directory ...: ..."
    | LstatFailed(path: Path, cause: Error)   // "Fail to get file info of ...: ..."
    | Decode(reason: string)                  // raised by an archive or compression decoder

  datatype Result<+T> = Ok(value: T) | Err(error: Error)

  datatype Status = Success | Failure(error: Error)

  /** The state after a mutating call together with its verdict: a failure may
      follow effects that are not rolled back. */
  datatype Outcome = Outcome(fs: FS, status: Status)

  function Parent(p: Path): Path
  {
    if p == [] then [] else p[..|p| - 1]
  }

  /** Taking the parent commutes with prefixing a non-empty path. */
  lemma ParentAppend(a: Path, r: Path)
    requires r != []
    ensures Parent(a + r) == a + Parent(r)
  {
    assert (a + r)[..|a + r| - 1] == a + r[..|r| - 1];
  }

  /** A common prefix cancels. */
  lemma PrefixCancel(a: Path, x: Path, y: Path)
    ensures a + x == a + y ==> x == y
  {
    if a + x == a + y {
      assert x == (a + x)[|a|..];
      assert y == (a + y)[|a|..];
    }
  }

  ghost predicate IsDirKey(fs: FS, p: Path)
  {
    p in fs && fs[p].Dir?
  }

  /** Well-formed: the root is a directory and every other object sits in a
      directory. */
  ghost predicate WF(fs: FS)
  {
    && IsDirKey(fs, [])
    && forall p {:trigger Parent(p)} :: p in fs && p != [] ==> IsDirKey(fs, Parent(p))
  }

  /** `p` names an object of `fs`, or a free slot inside an existing directory. */
  ghost predicate Located(fs: FS, p: Path)
  {
    p in fs || (p != [] && IsDirKey(fs, Parent(p)))
  }

  /** No prefix of `p` (including `p`) that exists is a symbolic link, so the
      textual path is the path the kernel reaches. */
  ghost predicate Plain(fs: FS, p: Path)
  {
    forall i :: 0 <= i <= |p| && p[..i] in fs ==> !fs[p[..i]].Symlink?
  }

  /** Every prefix of `p` (including `p`) that exists is a directory, so
      `MkdirAll` of `p` meets no obstacle. */
  ghost predicate DirsAlong(fs: FS, p: Path)
  {
    forall i :: 0 <= i <= |p| && p[..i] in fs ==> fs[p[..i]].Dir?
  }

  /** Every proper prefix of `p` is an existing directory. */
  ghost predicate AncestorsAreDirs(fs: FS, p: Path)
  {
    forall i :: 0 <= i < |p| ==> IsDirKey(fs, p[..i])
  }

  /** Resolves `rest` relative to the directory `done`. On success the result
      is an existing object or a free slot in an existing directory; with
      `followLast` it is never a symbolic link. */
  function ResolveFrom(fs: FS, done: Path, rest: Path, hops: nat, followLast: bool): (r: Result<Path>)
    requires WF(fs)
    requires IsDirKey(fs, done)
    ensures r.Ok? ==> Located(fs, r.value)
    ensures r.Ok? && followLast && r.value in fs ==> !fs[r.value].Symlink?
    ensures r.Err? ==> r.error.PathError?
    decreases hops, |rest|
  {
    if rest == [] then Ok(done)
    else
      var q := done + [rest[0]];
      assert Parent(q) == done;
      if q !in fs then
        if |rest| == 1 then Ok(q) else Err(PathError(q, ENOENT))
      else
        match fs[q]
        case Dir(_) => ResolveFrom(fs, q, rest[1..], hops, followLast)
        case File(_, _) => if |rest| == 1 then Ok(q) else Err(PathError(q, ENOTDIR))
        case Symlink(t) =>
          if |rest| == 1 && !followLast then Ok(q)
          else if hops == 0 then Err(PathError(q, ELOOP))
          else ResolveFrom(fs, [], t + rest[1..], hops - 1, followLast)
  }

  function Resolve(fs: FS, p: Path, followLast: bool): (r: Result<Path>)
    requires WF(fs)
    ensures r.Ok? ==> Located(fs, r.value)
    ensures r.Ok? && followLast && r.value in fs ==> !fs[r.value].Symlink?
  {
    ResolveFrom(fs, [], p, MaxSymlinkHops, followLast)
  }

  /** The errno of a failed lookup, reported against the path the caller gave. */
  function ErrnoOf(r: Result<Path>): Errno
  {
    if r.Err? && r.error.PathError? then r.error.errno else ENOENT
  }

  /** `os.Stat`: the object `p` reaches, following links. */
  function Stat(fs: FS, p: Path): (r: Result<Node>)
    requires WF(fs)
    ensures r.Ok? ==> !r.value.Symlink?
    ensures r.Err? ==> r.error.PathError? && r.error.path == p
  {
    var q := Resolve(fs, p, true);
    if q.Ok? && q.value in fs then Ok(fs[q.value]) else Err(PathError(p, ErrnoOf(q)))
  }

  /** `os.Lstat`: like `Stat`, but a link in the last position is reported
      as itself. */
  function Lstat(fs: FS, p: Path): (r: Result<Node>)
    requires WF(fs)
  {
    var q := Resolve(fs, p, false);
    if q.Ok? && q.value in fs then Ok(fs[q.value]) else Err(PathError(p, ErrnoOf(q)))
  }

  /** `os.Mkdir`: creates one directory where nothing exists yet. */
  function Mkdir(fs: FS, p: Path, mode: Mode): (r: Result<FS>)
    requires WF(fs)
    ensures r.Ok? ==> WF(r.value)
    ensures r.Ok? <==> Resolve(fs, p, false).Ok? && Resolve(fs, p, false).value !in fs
    ensures r.Ok? ==> r.value == fs[Resolve(fs, p, false).value := Dir(mode)]
  {
    var q := Resolve(fs, p, false);
    if q.Err? then Err(PathError(p, ErrnoOf(q)))
    else if q.value in fs then Err(PathError(p, EEXIST))
    else
      var fs' := fs[q.value := Dir(mode)];
      assert WF(fs') by { assert forall k :: k in fs' && k != [] ==> IsDirKey(fs', Parent(k)); }
      Ok(fs')
  }

  /** Only new keys were added, and each of them is a directory with `mode`. */
  ghost predicate AddsDirs(fs: FS, fs': FS, mode: Mode)
  {
    && (forall k :: k in fs ==> k in fs' && fs'[k] == fs[k])
    && (forall k :: k in fs' && k !in fs ==> fs'[k] == Dir(mode))
  }

  /** `os.MkdirAll`: succeeds at once when `Stat` finds a directory, fails
      with `ENOTDIR` when it finds anything else, and otherwise creates the
      parent (unless it is the root) and then `p` itself; a failing `Mkdir`
      is forgiven when `Lstat` then finds a directory. */
  function MkdirAll(fs: FS, p: Path, mode: Mode): (r: Outcome)
    requires WF(fs)
    ensures WF(r.fs)
    ensures AddsDirs(fs, r.fs, mode) && KindsKept(fs, r.fs)
    ensures r.status.Success? ==> Stat(r.fs, p).Ok? && Stat(r.fs, p).value.Dir?
    decreases |p|
  {
    match Stat(fs, p)
    case Ok(n) =>
      if n.Dir? then Outcome(fs, Success) else Outcome(fs, Failure(PathError(p, ENOTDIR)))
    case Err(_) =>
      var o := if |p| >= 2 then MkdirAll(fs, Parent(p), mode) else Outcome(fs, Success);
      if o.status.Failure? then o
      else
        match Mkdir(o.fs, p, mode)
        case Ok(fs') =>
          var q := Resolve(o.fs, p, false).value;
          ResolveStable(o.fs, fs', [], p, MaxSymlinkHops, false, q, Dir(mode));
          ResolveFollowIrrelevant(fs', [], p, MaxSymlinkHops);
          Outcome(fs', Success)
        case Err(e) =>
          var l := Lstat(o.fs, p);
          if l.Ok? && l.value.Dir? then
            ResolveFollowIrrelevant(o.fs, [], p, MaxSymlinkHops);
            Outcome(o.fs, Success)
          else Outcome(o.fs, Failure(e))
  }

  /** `os.OpenFile(p, O_WRONLY|O_CREATE|O_TRUNC, mode)` followed by a full
      copy of `content`: the object `p` reaches (following links) becomes a
      file holding exactly `content`. A new file gets `mode`; an existing one
      keeps its own mode. A directory cannot be opened for writing. */
  function WriteFile(fs: FS, p: Path, content: Bytes, mode: Mode): (r: Result<FS>)
    requires WF(fs)
    ensures r.Err? <==> Resolve(fs, p, true).Err? || (Stat(fs, p).Ok? && Stat(fs, p).value.Dir?)
    ensures r.Ok? ==> WF(r.value) && KindsKept(fs, r.value)
    ensures r.Ok? ==> Resolve(fs, p, true).Ok? && r.value == Written(fs, Resolve(fs, p, true).value, content, mode)
    ensures r.Ok? ==> Stat(r.value, p).Ok? && Stat(r.value, p).value.File? && Stat(r.value, p).value.content == content
  {
    var q := Resolve(fs, p, true);
    if q.Err? then Err(PathError(p, ErrnoOf(q)))
    else if q.value in fs && fs[q.value].Dir? then Err(PathError(p, EISDIR))
    else
      WrittenLands(fs, p, q.value, content, mode);
      Ok(Written(fs, q.value, content, mode))
  }

  /** The state after truncating and filling the file at the resolved slot `q`. */
  function Written(fs: FS, q: Path, content: Bytes, mode: Mode): FS
  {
    var m := if q in fs && fs[q].File? then fs[q].mode else mode;
    fs[q := File(content, m)]
  }

  /** Filling a free slot or an existing file keeps the filesystem
      well-formed and changes no object's kind. */
  lemma WrittenKept(fs: FS, q: Path, content: Bytes, mode: Mode)
    requires WF(fs) && Located(fs, q)
    requires q in fs ==> fs[q].File?
    ensures WF(Written(fs, q, content, mode)) && KindsKept(fs, Written(fs, q, content, mode))
  {
    var fs' := Written(fs, q, content, mode);
    assert WF(fs') by { assert forall k :: k in fs' && k != [] ==> IsDirKey(fs', Parent(k)); }
  }

  lemma WrittenLands(fs: FS, p: Path, q: Path, content: Bytes, mode: Mode)
    requires WF(fs) && Resolve(fs, p, true) == Ok(q)
    requires !(q in fs && fs[q].Dir?)
    ensures WF(Written(fs, q, content, mode))
    ensures Stat(Written(fs, q, content, mode), p) == Ok(File(content, Written(fs, q, content, mode)[q].mode))
  {
    var fs' := Written(fs, q, content, mode);
    assert WF(fs') by { assert forall k :: k in fs' && k != [] ==> IsDirKey(fs', Parent(k)); }
    ResolveStable(fs, fs', [], p, MaxSymlinkHops, true, q, fs'[q]);
  }

  /** `os.Symlink(target, p)`: fails when anything, even a dangling link,
      already sits at `p`. */
  function MakeSymlink(fs: FS, target: Path, p: Path): (r: Result<FS>)
    requires WF(fs)
    ensures r.Ok? ==> WF(r.value) && KindsKept(fs, r.value)
    ensures r.Ok? <==> Resolve(fs, p, false).Ok? && Resolve(fs, p, false).value !in fs
    ensures r.Ok? ==> r.value == fs[Resolve(fs, p, false).value := Symlink(target)]
  {
    var q := Resolve(fs, p, false);
    if q.Err? then Err(PathError(p, ErrnoOf(q)))
    else if q.value in fs then Err(PathError(p, EEXIST))
    else
      var fs' := fs[q.value := Symlink(target)];
      assert WF(fs') by { assert forall k :: k in fs' && k != [] ==> IsDirKey(fs', Parent(k)); }
      Ok(fs')
  }

  function WithMode(n: Node, mode: Mode): Node
  {
    match n
    case Dir(_) => Dir(mode)
    case File(c, _) => File(c, mode)
    case Symlink(t) => Symlink(t)
  }

  /** `os.Chmod`: sets the mode of the object `p` reaches, following links. */
  function Chmod(fs: FS, p: Path, mode: Mode): (r: Result<FS>)
    requires WF(fs)
    ensures r.Ok? ==> WF(r.value) && r.value.Keys == fs.Keys && KindsKept(fs, r.value)
    ensures r.Ok? ==> forall k :: k in fs ==> r.value[k] == fs[k] || r.value[k] == WithMode(fs[k], mode)
    ensures r.Ok? <==> Resolve(fs, p, true).Ok? && Resolve(fs, p, true).value in fs
    ensures r.Ok? ==> var q := Resolve(fs, p, true).value; r.value == fs[q := WithMode(fs[q], mode)]
    ensures r.Err? ==> r.error == PathError(p, ErrnoOf(Resolve(fs, p, true)))
  {
    var q := Resolve(fs, p, true);
    if q.Ok? && q.value in fs then
      var fs' := fs[q.value := WithMode(fs[q.value], mode)];
      assert WF(fs') by { assert forall k :: k in fs' && k != [] ==> IsDirKey(fs', Parent(k)); }
      Ok(fs')
    else Err(PathError(p, ErrnoOf(q)))
  }

  /** Nodes that a lookup passes through in the same way. */
  ghost predicate Compatible(before: Node, n: Node)
  {
    (before.Dir? && n.Dir?) || (before.File? && n.File?) || (before.Symlink? && n == before)
  }

  /** Replacing the object a lookup ended at by a compatible one (or filling
      the free slot it ended at) does not change where the lookup ends. */
  lemma {:induction false} ResolveStable(fs: FS, fs': FS, done: Path, rest: Path, hops: nat, followLast: bool, q: Path, n: Node)
    requires WF(fs) && WF(fs') && IsDirKey(fs, done)
    requires ResolveFrom(fs, done, rest, hops, followLast) == Ok(q)
    requires fs' == fs[q := n]
    requires q in fs ==> Compatible(fs[q], n)
    requires followLast ==> !n.Symlink?
    ensures IsDirKey(fs', done)
    ensures ResolveFrom(fs', done, rest, hops, followLast) == Ok(q)
    decreases hops, |rest|
  {
    if q in fs && fs[q] == n {
      assert fs' == fs;
    } else if rest != [] {
      var k := done + [rest[0]];
      assert Parent(k) == done;
      if k == q {
        if k in fs && fs[k].Dir? {
          ResolveStable(fs, fs', k, rest[1..], hops, followLast, q, n);
        } else {
          assert |rest| == 1;
          if n.Dir? {
            assert ResolveFrom(fs', k, [], hops, followLast) == Ok(k);
          }
        }
      } else if k in fs {
        assert fs'[k] == fs[k];
        match fs[k]
        case Dir(_) =>
          ResolveStable(fs, fs', k, rest[1..], hops, followLast, q, n);
        case File(_, _) =>
        case Symlink(t) =>
          if !(|rest| == 1 && !followLast) {
            ResolveStable(fs, fs', [], t + rest[1..], hops - 1, followLast, q, n);
          }
      }
    }
  }

  /** When a lookup ends at something other than a link, following the last
      component or not makes no difference. */
  lemma {:induction false} ResolveFollowIrrelevant(fs: FS, done: Path, rest: Path, hops: nat)
    requires WF(fs) && IsDirKey(fs, done)
    requires ResolveFrom(fs, done, rest, hops, false).Ok?
    requires var q := ResolveFrom(fs, done, rest, hops, false).value; q in fs ==> !fs[q].Symlink?
    ensures ResolveFrom(fs, done, rest, hops, true) == ResolveFrom(fs, done, rest, hops, false)
    decreases hops, |rest|
  {
    if rest != [] {
      var k := done + [rest[0]];
      if k in fs {
        match fs[k]
        case Dir(_) =>
          ResolveFollowIrrelevant(fs, k, rest[1..], hops);
        case File(_, _) =>
        case Symlink(t) =>
          if |rest| != 1 && hops > 0 {
            ResolveFollowIrrelevant(fs, [], t + rest[1..], hops - 1);
          }
      }
    }
  }

  /** Every proper prefix of an object of a well-formed filesystem is a
      directory. */
  lemma {:induction false} KeyAncestors(fs: FS, p: Path)
    requires WF(fs) && p in fs
    ensures AncestorsAreDirs(fs, p)
    decreases |p|
  {
    if p != [] {
      KeyAncestors(fs, Parent(p));
      forall i | 0 <= i < |p|
        ensures IsDirKey(fs, p[..i])
      {
        if i < |p| - 1 {
          assert p[..i] == Parent(p)[..i];
        }
      }
    }
  }

  lemma AncestorDir(fs: FS, p: Path, i: nat)
    requires WF(fs) && p in fs && i < |p|
    ensures IsDirKey(fs, p[..i])
  {
    KeyAncestors(fs, p);
  }

  /** A lookup along a path whose existing prefixes are all directories can
      only fail because a component is missing. */
  lemma {:induction false} ResolveAlongDirs(fs: FS, done: Path, rest: Path, hops: nat, followLast: bool)
    requires WF(fs) && IsDirKey(fs, done) && DirsAlong(fs, done + rest)
    ensures ResolveFrom(fs, done, rest, hops, followLast).Err? ==>
              ResolveFrom(fs, done, rest, hops, followLast).error.errno == ENOENT
    decreases |rest|
  {
    if rest != [] {
      var k := done + [rest[0]];
      assert k == (done + rest)[..|done| + 1];
      if k in fs {
        assert k + rest[1..] == done + rest;
        ResolveAlongDirs(fs, k, rest[1..], hops, followLast);
      }
    }
  }

  /** `Stat` of such a path fails only with `ENOENT`. */
  lemma StatAlongDirs(fs: FS, p: Path)
    requires WF(fs) && DirsAlong(fs, p)
    ensures Stat(fs, p).Err? ==> Stat(fs, p).error.errno == ENOENT
  {
    assert [] + p == p;
    ResolveAlongDirs(fs, [], p, MaxSymlinkHops, true);
  }

  /** Only directories along a path: in particular no links. */
  lemma DirsAlongPlain(fs: FS, p: Path)
    requires DirsAlong(fs, p)
    ensures Plain(fs, p)
  {
  }

  /** A path without links resolves to itself exactly when it is located, and
      fails otherwise. */
  lemma {:induction false} ResolvePlainFrom(fs: FS, done: Path, rest: Path, hops: nat, followLast: bool)
    requires WF(fs) && IsDirKey(fs, done) && Plain(fs, done + rest)
    ensures Located(fs, done + rest) ==> ResolveFrom(fs, done, rest, hops, followLast) == Ok(done + rest)
    ensures !Located(fs, done + rest) ==> ResolveFrom(fs, done, rest, hops, followLast).Err?
    decreases |rest|
  {
    var p := done + rest;
    if rest == [] {
      assert p == done;
    } else {
      var k := done + [rest[0]];
      assert k == p[..|done| + 1];
      if k !in fs || fs[k].File? {
        ResolvePlainStop(fs, done, rest, hops, followLast);
      } else {
        assert !fs[k].Symlink?;
        assert k + rest[1..] == p;
        ResolvePlainFrom(fs, k, rest[1..], hops, followLast);
      }
    }
  }

  /** The step of `ResolvePlainFrom` where the next component is missing or a
      file. */
  lemma ResolvePlainStop(fs: FS, done: Path, rest: Path, hops: nat, followLast: bool)
    requires WF(fs) && IsDirKey(fs, done) && rest != []
    requires done + [rest[0]] !in fs || fs[done + [rest[0]]].File?
    ensures Located(fs, done + rest) ==> ResolveFrom(fs, done, rest, hops, followLast) == Ok(done + rest)
    ensures !Located(fs, done + rest) ==> ResolveFrom(fs, done, rest, hops, followLast).Err?
  {
    var p := done + rest;
    var k := done + [rest[0]];
    assert k == p[..|done| + 1];
    if |rest| == 1 {
      assert k == p;
      assert Parent(k) == done;
    } else {
      LocatedAncestors(fs, p, |done| + 1);
    }
  }

  /** Every proper prefix of a located path is a directory. */
  lemma LocatedAncestors(fs: FS, p: Path, i: nat)
    requires WF(fs) && i < |p|
    ensures Located(fs, p) ==> IsDirKey(fs, p[..i])
  {
    if p in fs {
      KeyAncestors(fs, p);
    } else if p != [] && IsDirKey(fs, Parent(p)) {
      KeyAncestors(fs, Parent(p));
      if i == |p| - 1 {
        assert p[..i] == Parent(p);
      } else {
        assert Parent(p)[..i] == p[..i];
      }
    }
  }

  lemma ResolvePlain(fs: FS, p: Path, followLast: bool)
    requires WF(fs)
    ensures Plain(fs, p) && Located(fs, p) ==> Resolve(fs, p, followLast) == Ok(p)
    ensures Plain(fs, p) && !Located(fs, p) ==> Resolve(fs, p, followLast).Err?
  {
    if Plain(fs, p) {
      assert [] + p == p;
      ResolvePlainFrom(fs, [], p, MaxSymlinkHops, followLast);
    }
  }

  /** A lookup whose every intermediate component is a directory ends at the
      path itself (unless it has to follow a link in the last position). */
  lemma {:induction false} ResolveThroughDirs(fs: FS, done: Path, rest: Path, hops: nat, followLast: bool)
    requires WF(fs) && IsDirKey(fs, done)
    requires AncestorsAreDirs(fs, done + rest)
    requires followLast && done + rest in fs ==> !fs[done + rest].Symlink?
    ensures ResolveFrom(fs, done, rest, hops, followLast) == Ok(done + rest)
    decreases |rest|
  {
    var p := done + rest;
    if rest == [] {
      assert p == done;
    } else {
      var k := done + [rest[0]];
      assert k == p[..|done| + 1];
      if |rest| == 1 {
        assert k == p;
        if k in fs && fs[k].Dir? {
          assert ResolveFrom(fs, k, [], hops, followLast) == Ok(k);
        }
      } else {
        assert IsDirKey(fs, k);
        assert k + rest[1..] == p;
        ResolveThroughDirs(fs, k, rest[1..], hops, followLast);
      }
    }
  }

  /** An object of the filesystem is found by `Lstat` under its own path. */
  lemma LstatKey(fs: FS, p: Path)
    requires WF(fs)
    ensures p in fs ==> Resolve(fs, p, false) == Ok(p)
    ensures p in fs ==> Lstat(fs, p) == Ok(fs[p])
  {
    if p in fs {
      KeyAncestors(fs, p);
      assert [] + p == p;
      ResolveThroughDirs(fs, [], p, MaxSymlinkHops, false);
    }
  }

  /** An object other than a link is found by `Stat` under its own path. */
  lemma StatKey(fs: FS, p: Path)
    requires WF(fs) && p in fs && !fs[p].Symlink?
    ensures Resolve(fs, p, true) == Ok(p)
    ensures Stat(fs, p) == Ok(fs[p])
  {
    KeyAncestors(fs, p);
    assert [] + p == p;
    ResolveThroughDirs(fs, [], p, MaxSymlinkHops, true);
  }

  /** When `Stat` finds an object, so does `Lstat`. */
  lemma {:induction false} FollowFindsImpliesLookupFinds(fs: FS, done: Path, rest: Path, hops: nat)
    requires WF(fs) && IsDirKey(fs, done)
    requires ResolveFrom(fs, done, rest, hops, true).Ok?
    requires ResolveFrom(fs, done, rest, hops, true).value in fs
    ensures ResolveFrom(fs, done, rest, hops, false).Ok?
    ensures ResolveFrom(fs, done, rest, hops, false).value in fs
    decreases hops, |rest|
  {
    if rest != [] {
      var k := done + [rest[0]];
      if k in fs {
        match fs[k]
        case Dir(_) =>
          FollowFindsImpliesLookupFinds(fs, k, rest[1..], hops);
        case File(_, _) =>
        case Symlink(t) =>
          if |rest| != 1 {
            FollowFindsImpliesLookupFinds(fs, [], t + rest[1..], hops - 1);
          }
      }
    }
  }

  /** A lookup passes through a prefix made of directories unchanged. */
  lemma {:induction false} ResolveDirPrefix(fs: FS, done: Path, a: Path, b: Path, hops: nat, followLast: bool)
    requires WF(fs) && IsDirKey(fs, done) && IsDirKey(fs, done + a)
    ensures ResolveFrom(fs, done, a + b, hops, followLast) == ResolveFrom(fs, done + a, b, hops, followLast)
    decreases |a|
  {
    if a == [] {
      assert a + b == b;
      assert done + a == done;
    } else {
      var k := done + [a[0]];
      DirPrefixHead(fs, done, a);
      assert (a + b)[0] == a[0] && (a + b)[1..] == a[1..] + b;
      ResolveDirStep(fs, done, a + b, hops, followLast);
      ResolveDirPrefix(fs, k, a[1..], b, hops, followLast);
    }
  }

  /** The first component of a directory path below `done` is a directory. */
  lemma DirPrefixHead(fs: FS, done: Path, a: Path)
    requires WF(fs) && IsDirKey(fs, done + a) && a != []
    ensures IsDirKey(fs, done + [a[0]])
    ensures done + [a[0]] + a[1..] == done + a
  {
    var k := done + [a[0]];
    assert k == (done + a)[..|done| + 1];
    if |a| > 1 {
      AncestorDir(fs, done + a, |done| + 1);
    } else {
      assert k == done + a;
    }
  }

  /** One step of a lookup through a directory. */
  lemma ResolveDirStep(fs: FS, done: Path, rest: Path, hops: nat, followLast: bool)
    requires WF(fs) && IsDirKey(fs, done) && rest != [] && IsDirKey(fs, done + [rest[0]])
    ensures ResolveFrom(fs, done, rest, hops, followLast) == ResolveFrom(fs, done + [rest[0]], rest[1..], hops, followLast)
  {
  }

  /** `fs'` keeps every object of `fs`, each of the same kind: directories
      stay directories, files stay files (content and mode may change) and
      links are untouched; `fs'` may hold more. */
  ghost predicate KindsKept(fs: FS, fs': FS)
  {
    forall k :: k in fs ==> k in fs' && Compatible(fs[k], fs'[k])
  }

  lemma KindsKeptTransitive(fs: FS, fs': FS, fs'': FS)
    requires KindsKept(fs, fs') && KindsKept(fs', fs'')
    ensures KindsKept(fs, fs'')
  {
  }

  /** A lookup that ended at an existing object ends there again once kinds
      are kept: every component it passed through is still there. */
  lemma {:induction false} ResolveKept(fs: FS, fs': FS, done: Path, rest: Path, hops: nat, followLast: bool)
    requires WF(fs) && WF(fs') && KindsKept(fs, fs') && IsDirKey(fs, done)
    requires ResolveFrom(fs, done, rest, hops, followLast).Ok?
    requires ResolveFrom(fs, done, rest, hops, followLast).value in fs
    ensures IsDirKey(fs', done)
    ensures ResolveFrom(fs', done, rest, hops, followLast) == ResolveFrom(fs, done, rest, hops, followLast)
    decreases hops, |rest|
  {
    if rest != [] {
      var k := done + [rest[0]];
      if k in fs {
        assert Compatible(fs[k], fs'[k]);
        match fs[k]
        case Dir(_) =>
          ResolveKept(fs, fs', k, rest[1..], hops, followLast);
        case File(_, _) =>
        case Symlink(t) =>
          if !(|rest| == 1 && !followLast) {
            ResolveKept(fs, fs', [], t + rest[1..], hops - 1, followLast);
          }
      }
    }
  }

  /** What `Stat` finds stays found, of the same kind, when kinds are kept. */
  lemma StatKept(fs: FS, fs': FS, p: Path)
    requires WF(fs) && WF(fs') && KindsKept(fs, fs') && Stat(fs, p).Ok?
    ensures Stat(fs', p).Ok? && Compatible(Stat(fs, p).value, Stat(fs', p).value)
  {
    ResolveKept(fs, fs', [], p, MaxSymlinkHops, true);
  }

  /** A filesystem without symbolic links. */
  ghost predicate NoLinks(fs: FS)
  {
    forall k :: k in fs ==> !fs[k].Symlink?
  }

  lemma NoLinksPlain(fs: FS, p: Path)
    requires NoLinks(fs)
    ensures Plain(fs, p)
  {
  }

  /** On a path without links, `MkdirAll` of a missing object whose parent is
      a directory creates exactly that one directory. */
  lemma MkdirAllFresh(fs: FS, p: Path, mode: Mode)
    requires WF(fs) && Plain(fs, p) && p != [] && p !in fs && IsDirKey(fs, Parent(p))
    ensures MkdirAll(fs, p, mode) == Outcome(fs[p := Dir(mode)], Success)
  {
    assert Located(fs, p);
    assert Stat(fs, p).Err? by {
      ResolvePlain(fs, p, true);
    }
    assert Mkdir(fs, p, mode) == Ok(fs[p := Dir(mode)]) by {
      ResolvePlain(fs, p, false);
    }
    if |p| >= 2 {
      assert MkdirAll(fs, Parent(p), mode) == Outcome(fs, Success) by {
        StatKey(fs, Parent(p));
      }
    }
  }

  /** Following a link in the last position restarts the lookup at its
      target with one hop fewer. */
  lemma FollowLink(fs: FS, p: Path)
    requires WF(fs) && p in fs && fs[p].Symlink?
    ensures Resolve(fs, p, true) == ResolveFrom(fs, [], fs[p].target, MaxSymlinkHops - 1, true)
  {
    var dir := Parent(p);
    assert p == dir + [p[|p| - 1]];
    assert [] + dir == dir;
    ResolveDirPrefix(fs, [], dir, [p[|p| - 1]], MaxSymlinkHops, true);
    assert fs[p].target + [] == fs[p].target;
  }

  /** A lookup of `a + b` where `a` alone (not following a last link) ends
      at a directory `q` continues from `q` with the hops left. */
  lemma {:induction false} ResolveAppend(fs: FS, done: Path, a: Path, b: Path, hops: nat, followLast: bool, q: Path)
    requires WF(fs) && IsDirKey(fs, done)
    requires ResolveFrom(fs, done, a, hops, false) == Ok(q) && IsDirKey(fs, q)
    ensures exists h: nat :: h <= hops && ResolveFrom(fs, done, a + b, hops, followLast) == ResolveFrom(fs, q, b, h, followLast)
    decreases hops, |a|
  {
    if a == [] {
      assert a + b == b;
      assert ResolveFrom(fs, done, a + b, hops, followLast) == ResolveFrom(fs, q, b, hops, followLast);
    } else {
      var k := done + [a[0]];
      assert (a + b)[0] == a[0] && (a + b)[1..] == a[1..] + b;
      if k in fs && fs[k].Dir? {
        ResolveAppend(fs, k, a[1..], b, hops, followLast, q);
      } else if k in fs && fs[k].Symlink? && |a| > 1 && hops > 0 {
        var t := fs[k].target;
        assert t + (a[1..] + b) == (t + a[1..]) + b;
        ResolveAppend(fs, [], t + a[1..], b, hops - 1, followLast, q);
      }
    }
  }

  /** `MkdirAll` on a path without links whose existing prefixes are all
      directories succeeds, and afterwards every prefix is a directory; the
      only new objects are prefixes of the path. */
  lemma {:induction false} MkdirAllPlain(fs: FS, p: Path, mode: Mode)
    requires WF(fs) && Plain(fs, p)
    requires DirsAlong(fs, p)
    ensures MkdirsAlong(fs, MkdirAll(fs, p, mode), p)
    decreases |p|
  {
    if p in fs {
      assert p[..|p|] == p;
      StatKey(fs, p);
      KeyAncestors(fs, p);
    } else {
      if |p| >= 2 {
        MkdirAllPlainParent(fs, p);
        MkdirAllPlain(fs, Parent(p), mode);
      }
      MkdirAllPlainLast(fs, p, mode);
    }
  }

  /** `o` succeeded, every prefix of `p` is a directory after it, and it
      added nothing off `p`. */
  ghost predicate MkdirsAlong(fs: FS, o: Outcome, p: Path)
  {
    && o.status == Success
    && (forall i :: 0 <= i <= |p| ==> IsDirKey(o.fs, p[..i]))
    && (forall k :: k in o.fs && k !in fs ==> k <= p)
  }

  /** The last step of `MkdirAllPlain`: once `MkdirAll` has put the parent's
      prefixes in place, it adds `p` itself. */
  lemma MkdirAllPlainLast(fs: FS, p: Path, mode: Mode)
    requires WF(fs) && Plain(fs, p) && p != [] && p !in fs
    requires |p| >= 2 ==> MkdirsAlong(fs, MkdirAll(fs, Parent(p), mode), Parent(p))
    ensures MkdirsAlong(fs, MkdirAll(fs, p, mode), p)
  {
    var par := Parent(p);
    ResolvePlain(fs, p, true);
    var o := if |p| >= 2 then MkdirAll(fs, par, mode) else Outcome(fs, Success);
    assert IsDirKey(o.fs, par) && forall k :: k in o.fs && k !in fs ==> k <= par by {
      assert par[..|par|] == par;
    }
    MkdirAllPlainStep(fs, o.fs, p, mode);
    MkdirAllMissing(fs, p, mode);
    assert MkdirAll(fs, p, mode) == Outcome(o.fs[p := Dir(mode)], Success);
    forall i | 0 <= i <= |p|
      ensures IsDirKey(o.fs[p := Dir(mode)], p[..i])
    {
      if i < |p| {
        assert p[..i] == par[..i];
      } else {
        assert p[..i] == p;
      }
    }
  }

  /** `MkdirAll` of a missing path whose parent is in place ends with one
      `Mkdir`. */
  lemma MkdirAllMissing(fs: FS, p: Path, mode: Mode)
    requires WF(fs) && Stat(fs, p).Err?
    ensures var o := if |p| >= 2 then MkdirAll(fs, Parent(p), mode) else Outcome(fs, Success);
            o.status.Success? && Mkdir(o.fs, p, mode).Ok? ==>
              MkdirAll(fs, p, mode) == Outcome(Mkdir(o.fs, p, mode).value, Success)
  {
  }

  /** The parent of such a path satisfies the same hypotheses. */
  lemma MkdirAllPlainParent(fs: FS, p: Path)
    requires Plain(fs, p) && p != []
    requires DirsAlong(fs, p)
    ensures Plain(fs, Parent(p))
    ensures DirsAlong(fs, Parent(p))
  {
    var par := Parent(p);
    forall i | 0 <= i <= |par|
      ensures par[..i] == p[..i]
    {
    }
  }

  /** The last `Mkdir` of `MkdirAllPlain`, once the parent is in place. */
  lemma MkdirAllPlainStep(fs: FS, fs': FS, p: Path, mode: Mode)
    requires WF(fs) && WF(fs') && Plain(fs, p) && p != [] && p !in fs
    requires AddsDirs(fs, fs', mode) && IsDirKey(fs', Parent(p))
    requires forall k :: k in fs' && k !in fs ==> k <= Parent(p)
    ensures Mkdir(fs', p, mode) == Ok(fs'[p := Dir(mode)])
  {
    assert |Parent(p)| < |p|;
    assert Plain(fs', p) by {
      forall i | 0 <= i <= |p| && p[..i] in fs'
        ensures !fs'[p[..i]].Symlink?
      {
        if p[..i] !in fs {
          assert fs'[p[..i]] == Dir(mode);
        }
      }
    }
    assert Located(fs', p);
    ResolvePlain(fs', p, false);
  }
}

=== FILE: lexical.dfy ===
/**
 The order in which Go's `filepath.Walk` visits the entries of a directory:
 names sorted by `sort.Strings`, which compares strings character by
 character and puts a proper prefix first.
 */
module Lexical {

  /** `a` sorts no later than `b`. */
  predicate Below(a: string, b: string)
  {
    |a| == 0 || (|b| > 0 && (a[0] < b[0] || (a[0] == b[0] && Below(a[1..], b[1..]))))
  }

  lemma Total(a: string, b: string)
    ensures Below(a, b) || Below(b, a)
  {
    if |a| > 0 && |b| > 0 && a[0] == b[0] {
      Total(a[1..], b[1..]);
    }
  }

  lemma Antisymmetric(a: string, b: string)
    requires Below(a, b) && Below(b, a)
    ensures a == b
  {
    if |a| > 0 {
      Antisymmetric(a[1..], b[1..]);
      assert a == [a[0]] + a[1..];
      assert b == [b[0]] + b[1..];
    }
  }

  lemma Reflexive(a: string)
    ensures Below(a, a)
  {
    if |a| > 0 {
      Reflexive(a[1..]);
    }
  }

  lemma Transitive(a: string, b: string, c: string)
    requires Below(a, b) && Below(b, c)
    ensures Below(a, c)
  {
    if |a| > 0 && a[0] == b[0] && b[0] == c[0] {
      Transitive(a[1..], b[1..], c[1..]);
    }
  }

  predicate IsLeast(m: string, s: set<string>)
  {
    m in s && forall x :: x in s ==> Below(m, x)
  }

  lemma {:induction false} LeastExists(s: set<string>)
    requires s != {}
    ensures exists m :: IsLeast(m, s)
    decreases s
  {
    var y :| y in s;
    if s != {y} {
      LeastExists(s - {y});
      var m :| IsLeast(m, s - {y});
      Total(m, y);
      if Below(m, y) {
        assert IsLeast(m, s);
      } else {
        forall x | x in s
          ensures Below(y, x)
        {
          if x != y {
            assert x in s - {y};
            Transitive(y, m, x);
          } else {
            Reflexive(y);
          }
        }
        assert IsLeast(y, s);
      }
    } else {
      Reflexive(y);
      assert IsLeast(y, s);
    }
  }

  /** The first name of `s` in sorted order. */
  function Least(s: set<string>): (m: string)
    requires s != {}
    ensures m in s
    ensures forall x :: x in s ==> Below(m, x)
  {
    LeastExists(s);
    forall a, b | IsLeast(a, s) && IsLeast(b, s)
      ensures a == b
    {
      Antisymmetric(a, b);
    }
    var m :| IsLeast(m, s);
    m
  }
}

=== FILE: pack.dfy ===
/**
 `Tar` of `utils/util.go`: packs the objects named by `inputs`, each relative
 to the working directory `work`, into an archive.

 Both `current` and `work` must be directories for `Stat`. The process then
 changes into `work`, creates the archive file with `os.Create` and runs
 `filepath.Walk` on every input in turn, over the filesystem that already
 holds the (still empty) archive file. Inputs and the archive name are
 absolute or relative to `work`. The walk reports each object with `Lstat`,
 so links are archived as links and never followed, and each entry is named
 by the path the walk gives it (the input followed by the path below it).
 An input that `Lstat` cannot find makes its walk fail; that error is
 dropped and the input contributes nothing. A walk that reaches the archive
 file fails right after the archive's own header, and that error is dropped
 too: the input contributes the entries up to the archive's, and the next
 input is walked.

 The archive's bytes are represented by the sequence of entries written to
 it; the result pairs that sequence with the filesystem after the create.
 */
module Pack {
  import opened FileSystem
  import Walk
  import Probes
  import opened Extraction

  /** 0777, the permission bits `Lstat` reports for a symbolic link. */
  const LinkMode: Mode := 0x1FF

  /** The entry `tar.FileInfoHeader` builds for an object, under `name`. */
  function HeaderOf(name: Path, n: Node): (e: Entry)
    ensures e.name == name
    ensures n.Dir? <==> e.kind.DirEntry?
    ensures n.Dir? || n.File? ==> e.mode == n.mode
    ensures n.File? ==> e.kind == RegularEntry(n.content)
    ensures n.Symlink? ==> e.mode == LinkMode && e.kind == SymlinkEntry(n.target)
    ensures e.kind.RegularEntry? ==> n.File?
    ensures e.kind.SymlinkEntry? ==> n.Symlink?
  {
    match n
    case Dir(m) => Entry(name, m, DirEntry)
    case File(c, m) => Entry(name, m, RegularEntry(c))
    case Symlink(t) => Entry(name, LinkMode, SymlinkEntry(t))
  }

  /** The entries for the objects `w` lists below `q`, named from `input`. */
  function Headers(fs: FS, q: Path, input: Path, w: seq<Path>): (es: seq<Entry>)
    requires forall r :: r in w ==> q + r in fs
    ensures |es| == |w|
    ensures forall i :: 0 <= i < |w| ==> es[i] == HeaderOf(input + w[i], fs[q + w[i]])
  {
    seq(|w|, i requires 0 <= i < |w| => HeaderOf(input + w[i], fs[q + w[i]]))
  }

  /** The walk `w` of `q` cut right after it visits `a`, the archive file
      itself; all of `w` when it never visits `a`. Reading the archive into
      itself always overflows the entry that was sized by `Lstat` before its
      header went in, so the copy fails with `tar.ErrWriteTooLong`, the
      callback returns that error and `filepath.Walk` stops. */
  function UntilArchive(q: Path, w: seq<Path>, a: Path): (u: seq<Path>)
    ensures u <= w
    ensures forall i :: 0 <= i < |u| - 1 ==> q + u[i] != a
    ensures u == w || (|u| > 0 && q + u[|u| - 1] == a)
    decreases |w|
  {
    if w == [] then []
    else if q + w[0] == a then [w[0]]
    else
      var rest := UntilArchive(q, w[1..], a);
      assert [w[0]] + w[1..] == w;
      [w[0]] + rest
  }

  /** `filepath.Walk(input, walk)` run from the directory `cwd` while the
      archive file is `a`: entries for the object `Lstat` finds for `input`
      and what lies below it, the input itself first, up to the archive
      file; nothing when the input is not found. */
  function WalkInput(fs: FS, cwd: Path, input: Name, a: Path): (es: seq<Entry>)
    requires WF(fs) && IsDirKey(fs, cwd)
    ensures var l := ResolveFrom(fs, Base(cwd, input), input.path, MaxSymlinkHops, false);
            l.Err? || l.value !in fs ==> es == []
    ensures var l := ResolveFrom(fs, Base(cwd, input), input.path, MaxSymlinkHops, false);
            l.Ok? && l.value in fs ==> |es| > 0 && es[0] == HeaderOf(input.path, fs[l.value])
  {
    var l := ResolveFrom(fs, Base(cwd, input), input.path, MaxSymlinkHops, false);
    if l.Err? || l.value !in fs then []
    else
      var w := Walk.Walk(fs, l.value);
      var u := UntilArchive(l.value, w, a);
      assert u == w[..|u|];
      assert input.path + [] == input.path && l.value + [] == l.value;
      Headers(fs, l.value, input.path, u)
  }

  /** Headers of a cut walk are a prefix of the walk's headers. */
  lemma HeadersPrefix(fs: FS, q: Path, name: Path, w: seq<Path>, u: seq<Path>)
    requires (forall r :: r in w ==> q + r in fs) && u <= w
    ensures (forall r :: r in u ==> q + r in fs) && Headers(fs, q, name, u) <= Headers(fs, q, name, w)
  {
    assert u == w[..|u|];
  }

  /** A walk that reaches the archive file is cut right at it. */
  lemma UntilArchiveReaches(q: Path, w: seq<Path>, a: Path, j: nat)
    requires j < |w| && q + w[j] == a
    ensures var u := UntilArchive(q, w, a);
            |u| > 0 && q + u[|u| - 1] == a
  {
  }

  /** When the archive file lies at or below `q`, the walk of `q` is cut
      right at it. */
  lemma UntilArchiveHits(fs: FS, q: Path, a: Path)
    requires WF(fs) && q in fs && q <= a && a in fs
    ensures var u := UntilArchive(q, Walk.Walk(fs, q), a);
            |u| > 0 && u[|u| - 1] == a[|q|..]
  {
    var w := Walk.Walk(fs, q);
    var rel := a[|q|..];
    assert q + rel == a;
    Walk.WalkExactly(fs, q, rel);
    var j :| 0 <= j < |w| && w[j] == rel;
    UntilArchiveReaches(q, w, a, j);
    var u := UntilArchive(q, w, a);
    PrefixCancel(q, u[|u| - 1], rel);
  }

  /** When the archive file does not lie at or below `q`, the walk of `q` is
      whole. */
  lemma UntilArchiveMisses(fs: FS, q: Path, a: Path)
    requires WF(fs) && q in fs && (!(q <= a) || a !in fs)
    ensures UntilArchive(q, Walk.Walk(fs, q), a) == Walk.Walk(fs, q)
  {
  }

  /** `es` ends with the entry `e`, and no earlier entry carries its name. */
  ghost predicate EndsAt(es: seq<Entry>, e: Entry)
  {
    && |es| > 0 && es[|es| - 1] == e
    && forall i :: 0 <= i < |es| - 1 ==> es[i].name != e.name
  }

  /** The walk of a found input writes a prefix of the entries of everything
      at or below it. When the archive file lies there, the prefix ends with
      the archive's own entry and no earlier entry is the archive's; when it
      does not, nothing is cut. */
  lemma WalkInputCut(fs: FS, cwd: Path, input: Name, a: Path)
    requires WF(fs) && IsDirKey(fs, cwd)
    requires ResolveFrom(fs, Base(cwd, input), input.path, MaxSymlinkHops, false).Ok?
    requires ResolveFrom(fs, Base(cwd, input), input.path, MaxSymlinkHops, false).value in fs
    ensures var q := ResolveFrom(fs, Base(cwd, input), input.path, MaxSymlinkHops, false).value;
            var full := Headers(fs, q, input.path, Walk.Walk(fs, q));
            var es := WalkInput(fs, cwd, input, a);
            && es <= full
            && (q <= a && a in fs ==> EndsAt(es, HeaderOf(input.path + a[|q|..], fs[a])))
            && (!(q <= a) || a !in fs ==> es == full)
  {
    var q := ResolveFrom(fs, Base(cwd, input), input.path, MaxSymlinkHops, false).value;
    var w := Walk.Walk(fs, q);
    var u := UntilArchive(q, w, a);
    var es := WalkInput(fs, cwd, input, a);
    assert es == Headers(fs, q, input.path, u);
    HeadersPrefix(fs, q, input.path, w, u);
    if !(q <= a) || a !in fs {
      UntilArchiveMisses(fs, q, a);
    } else {
      Walk.WalkExactly(fs, q, a[|q|..]);
      assert q + a[|q|..] == a;
      HeadersHit(fs, q, input.path, w, a);
    }
  }

  /** The entries of a walk `w` of `q` that visits the archive file `a`,
      cut at it, end with the archive's own entry, and no earlier entry
      carries its name. */
  lemma HeadersHit(fs: FS, q: Path, name: Path, w: seq<Path>, a: Path)
    requires (forall r :: r in w ==> q + r in fs) && q <= a && a in fs && a[|q|..] in w
    ensures EndsAt(Headers(fs, q, name, UntilArchive(q, w, a)), HeaderOf(name + a[|q|..], fs[a]))
  {
    var u := UntilArchive(q, w, a);
    var rel := a[|q|..];
    assert q + rel == a;
    assert |u| > 0 && u[|u| - 1] == rel by {
      var j :| 0 <= j < |w| && w[j] == rel;
      UntilArchiveReaches(q, w, a, j);
      PrefixCancel(q, u[|u| - 1], rel);
    }
    HeadersPrefix(fs, q, name, w, u);
    var es := Headers(fs, q, name, u);
    assert es[|es| - 1] == HeaderOf(name + rel, fs[a]);
    HeadersNamesAvoid(fs, q, name, u, rel);
  }

  /** Entries for paths other than `rel` do not carry the name of `rel`. */
  lemma HeadersNamesAvoid(fs: FS, q: Path, name: Path, u: seq<Path>, rel: Path)
    requires (forall r :: r in u ==> q + r in fs) && forall i :: 0 <= i < |u| - 1 ==> q + u[i] != q + rel
    ensures var es := Headers(fs, q, name, u);
            forall i :: 0 <= i < |es| - 1 ==> es[i].name != name + rel
  {
    var es := Headers(fs, q, name, u);
    forall i | 0 <= i < |es| - 1
      ensures es[i].name != name + rel
    {
      PrefixCancel(name, u[i], rel);
    }
  }

  /** The headers of distinct objects below `q` are headers of objects and
      carry distinct names. */
  lemma HeadersOfObjects(fs: FS, q: Path, name: Path, u: seq<Path>)
    requires (forall r :: r in u ==> q + r in fs) && Walk.Distinct(u)
    ensures var es := Headers(fs, q, name, u);
            && (forall e :: e in es ==> exists rel :: q + rel in fs && e == HeaderOf(name + rel, fs[q + rel]))
            && (forall i, j :: 0 <= i < j < |es| ==> es[i].name != es[j].name)
  {
    var es := Headers(fs, q, name, u);
    forall e | e in es
      ensures exists rel :: q + rel in fs && e == HeaderOf(name + rel, fs[q + rel])
    {
      var i :| 0 <= i < |es| && es[i] == e;
      assert u[i] in u;
    }
    forall i, j | 0 <= i < j < |es|
      ensures es[i].name != es[j].name
    {
      assert u[i] != u[j];
      PrefixCancel(name, u[i], u[j]);
    }
  }

  /** Every entry of an input's walk is the header of an object at or below
      the input, and no two entries share a name. When the archive file does
      not lie at or below the input, every such object has its entry. */
  lemma WalkInputExactly(fs: FS, cwd: Path, input: Name, a: Path)
    requires WF(fs) && IsDirKey(fs, cwd)
    requires ResolveFrom(fs, Base(cwd, input), input.path, MaxSymlinkHops, false).Ok?
    requires ResolveFrom(fs, Base(cwd, input), input.path, MaxSymlinkHops, false).value in fs
    ensures var q := ResolveFrom(fs, Base(cwd, input), input.path, MaxSymlinkHops, false).value;
            var es := WalkInput(fs, cwd, input, a);
            && (!(q <= a) ==> forall rel :: q + rel in fs ==> HeaderOf(input.path + rel, fs[q + rel]) in es)
            && (forall e :: e in es ==> exists rel :: q + rel in fs && e == HeaderOf(input.path + rel, fs[q + rel]))
            && (forall i, j :: 0 <= i < j < |es| ==> es[i].name != es[j].name)
  {
    var q := ResolveFrom(fs, Base(cwd, input), input.path, MaxSymlinkHops, false).value;
    var w := Walk.Walk(fs, q);
    var u := UntilArchive(q, w, a);
    var es := WalkInput(fs, cwd, input, a);
    assert es == Headers(fs, q, input.path, u);
    Walk.PrefixShape(w, u);
    HeadersOfObjects(fs, q, input.path, u);
    if !(q <= a) {
      UntilArchiveMisses(fs, q, a);
      forall rel | q + rel in fs
        ensures HeaderOf(input.path + rel, fs[q + rel]) in es
      {
        Walk.WalkExactly(fs, q, rel);
        var i :| 0 <= i < |w| && w[i] == rel;
        assert es[i] == HeaderOf(input.path + rel, fs[q + rel]);
      }
    }
  }

  /** The walk is pre-order, also when cut at the archive: every entry after
      the first is preceded by a directory entry named by its parent, so
      extracting the entries in order meets each directory before what it
      contains; the names come in the order `filepath.Walk` visits them, so
      each directory's entries form one block right after it, in sorted name
      order. */
  lemma WalkInputPreOrder(fs: FS, cwd: Path, input: Name, a: Path)
    requires WF(fs) && IsDirKey(fs, cwd)
    ensures PreOrder(WalkInput(fs, cwd, input, a))
    ensures var es := WalkInput(fs, cwd, input, a);
            forall i, j, k :: 0 <= i < j < k < |es| && es[i].name <= es[k].name ==> es[i].name <= es[j].name
  {
    var es := WalkInput(fs, cwd, input, a);
    if |es| > 0 {
      var q := ResolveFrom(fs, Base(cwd, input), input.path, MaxSymlinkHops, false).value;
      var w := Walk.Walk(fs, q);
      var u := UntilArchive(q, w, a);
      assert es == Headers(fs, q, input.path, u);
      Walk.PrefixShape(w, u);
      assert u[0] == w[0] == [];
      HeadersPreOrder(fs, q, input.path, u);
      Walk.WalkSorted(fs, q);
      HeadersSorted(fs, q, input.path, w, u);
    }
    NamesContiguous(es);
  }

  /** Every entry after the first follows the directory entry named by its
      parent, and the names come in the order `filepath.Walk` visits
      paths. */
  ghost predicate PreOrder(es: seq<Entry>)
  {
    ParentsBefore(es) && NamesSorted(es)
  }

  /** Every entry after the first follows the directory entry named by its
      parent. */
  ghost predicate ParentsBefore(es: seq<Entry>)
  {
    forall i :: 0 < i < |es| ==> ParentBefore(es, i)
  }

  /** Each name comes before every later one in `Walk.Before`'s order. */
  ghost predicate NamesSorted(es: seq<Entry>)
  {
    forall i, j :: 0 <= i < j < |es| ==> Walk.Before(es[i].name, es[j].name)
  }

  /** With sorted names, whatever lies between an entry and one below it
      lies below it too. */
  lemma NamesContiguous(es: seq<Entry>)
    requires NamesSorted(es)
    ensures forall i, j, k :: 0 <= i < j < k < |es| && es[i].name <= es[k].name ==> es[i].name <= es[j].name
  {
    forall i, j, k | 0 <= i < j < k < |es| && es[i].name <= es[k].name
      ensures es[i].name <= es[j].name
    {
      Walk.BeforeBetween(es[i].name, es[j].name, es[k].name);
    }
  }

  /** The headers of a prefix of a sorted walk have sorted names. */
  lemma HeadersSorted(fs: FS, q: Path, name: Path, w: seq<Path>, u: seq<Path>)
    requires (forall r :: r in w ==> q + r in fs) && u <= w && Walk.Sorted(w)
    ensures (forall r :: r in u ==> q + r in fs) && NamesSorted(Headers(fs, q, name, u))
  {
    assert u == w[..|u|];
    var es := Headers(fs, q, name, u);
    forall i, j | 0 <= i < j < |es|
      ensures Walk.Before(es[i].name, es[j].name)
    {
      assert u[i] == w[i] && u[j] == w[j];
      Walk.BeforeAppend(name, u[i], u[j]);
    }
  }

  /** Some entry before entry `i` is the directory entry named by its parent. */
  ghost predicate ParentBefore(es: seq<Entry>, i: nat)
    requires i < |es|
  {
    exists j :: 0 <= j < i && es[j].name == Parent(es[i].name) && es[j].kind.DirEntry?
  }

  /** In the headers of a walk that starts at `q` itself and lists parents
      first, each entry after the first follows the directory entry of its
      parent. */
  lemma HeadersPreOrder(fs: FS, q: Path, name: Path, u: seq<Path>)
    requires WF(fs) && |u| > 0 && u[0] == [] && Walk.ParentsFirst(u) && Walk.Distinct(u)
    requires forall r :: r in u ==> q + r in fs
    ensures ParentsBefore(Headers(fs, q, name, u))
  {
    var es := Headers(fs, q, name, u);
    forall i | 0 < i < |es|
      ensures ParentBefore(es, i)
    {
      var j := HeaderParent(fs, q, name, u, i);
    }
  }

  /** The position of the directory entry of the parent of entry `i`. */
  lemma HeaderParent(fs: FS, q: Path, name: Path, u: seq<Path>, i: nat) returns (j: nat)
    requires WF(fs) && 0 < i < |u| && u[0] == [] && Walk.ParentsFirst(u) && Walk.Distinct(u)
    requires forall r :: r in u ==> q + r in fs
    ensures var es := Headers(fs, q, name, u);
            j < i && es[j].name == Parent(es[i].name) && es[j].kind.DirEntry?
  {
    var es := Headers(fs, q, name, u);
    assert Parent(u[i]) in u[..i];
    j :| 0 <= j < i && u[..i][j] == Parent(u[i]);
    assert u[i] != u[0] && u[i] in u && u[j] in u;
    ParentAppend(name, u[i]);
    ParentAppend(q, u[i]);
    assert q + u[i] in fs && q + u[i] != [];
    assert q + u[j] == Parent(q + u[i]);
  }

  /** The entries of all inputs, in order, each walk cut at the archive file
      `a`: a failed walk ends only its own input. */
  function WalkInputs(fs: FS, cwd: Path, inputs: seq<Name>, a: Path): (es: seq<Entry>)
    requires WF(fs) && IsDirKey(fs, cwd)
    ensures inputs == [] ==> es == []
    ensures |inputs| == 1 ==> es == WalkInput(fs, cwd, inputs[0], a)
    decreases |inputs|
  {
    if inputs == [] then [] else WalkInput(fs, cwd, inputs[0], a) + WalkInputs(fs, cwd, inputs[1..], a)
  }

  /** 0666, the mode `os.Create` gives a new file. */
  const ArchiveMode: Mode := 0x1B6

  /** What `os.Create` leaves: the new filesystem and the object the opened
      file is. */
  datatype Created = Created(fs: FS, file: Path)

  /** `os.Create(p)` run from the directory `cwd`: the object `p` reaches
      (following links) becomes an empty file, new with mode 0666 or an
      existing file truncated. A failed lookup and a directory are errors. */
  function CreateArchive(fs: FS, cwd: Path, p: Name): (r: Result<Created>)
    requires WF(fs) && IsDirKey(fs, cwd)
    ensures var l := ResolveFrom(fs, Base(cwd, p), p.path, MaxSymlinkHops, true);
            r.Err? <==> l.Err? || (l.value in fs && fs[l.value].Dir?)
    ensures r.Ok? ==> WF(r.value.fs) && KindsKept(fs, r.value.fs) && IsDirKey(r.value.fs, cwd)
    ensures r.Ok? ==>
              var q := r.value.file;
              var fs' := r.value.fs;
              && ResolveFrom(fs, Base(cwd, p), p.path, MaxSymlinkHops, true) == Ok(q)
              && q in fs' && fs'[q].File? && fs'[q].content == []
              && (q !in fs ==> fs'[q].mode == ArchiveMode)
              && (forall k :: k in fs' && k != q ==> k in fs && fs'[k] == fs[k])
              && (forall k :: k in fs ==> k in fs')
  {
    var l := ResolveFrom(fs, Base(cwd, p), p.path, MaxSymlinkHops, true);
    if l.Err? then Err(PathError(p.path, ErrnoOf(l)))
    else if l.value in fs && fs[l.value].Dir? then Err(PathError(p.path, EISDIR))
    else
      WrittenKept(fs, l.value, [], ArchiveMode);
      Ok(Created(Written(fs, l.value, [], ArchiveMode), l.value))
  }

  /** What packing leaves: the filesystem with the archive file created, and
      the entries written to that file. */
  datatype Packed = Packed(fs: FS, entries: seq<Entry>)

  /** `Tar`: checks both directories, creates the archive file from `work`,
      then walks every input from `work`, each walk stopping at the archive
      file. The walk sees the new archive file as it is when created, empty. */
  function Tar(fs: FS, current: Path, work: Path, inputs: seq<Name>, archive: Name): (r: Result<Packed>)
    requires WF(fs)
    ensures r.Ok? ==> Probes.IsDir(fs, current) && Probes.IsDir(fs, work)
    ensures Stat(fs, current).Err? ==> r == Err(Stat(fs, current).error)
    ensures Stat(fs, current).Ok? && !Stat(fs, current).value.Dir? ==> r == Err(NotADirectory(current))
    ensures Probes.IsDir(fs, current) && Stat(fs, work).Err? ==> r == Err(Stat(fs, work).error)
    ensures Probes.IsDir(fs, current) && Stat(fs, work).Ok? && !Stat(fs, work).value.Dir? ==>
              r == Err(NotADirectory(work))
    ensures Probes.IsDir(fs, current) && Probes.IsDir(fs, work) ==>
              var cwd := Resolve(fs, work, true).value;
              && IsDirKey(fs, cwd)
              && (CreateArchive(fs, cwd, archive).Err? ==> r == Err(CreateArchive(fs, cwd, archive).error))
              && (CreateArchive(fs, cwd, archive).Ok? ==>
                    var c := CreateArchive(fs, cwd, archive).value;
                    r == Ok(Packed(c.fs, WalkInputs(c.fs, cwd, inputs, c.file))))
  {
    match Stat(fs, current)
    case Err(e) => Err(e)
    case Ok(c) =>
      if !c.Dir? then Err(NotADirectory(current))
      else
        match Stat(fs, work)
        case Err(e) => Err(e)
        case Ok(w) =>
          if !w.Dir? then Err(NotADirectory(work))
          else
            var cwd := Resolve(fs, work, true).value;
            match CreateArchive(fs, cwd, archive)
            case Err(e) => Err(e)
            case Ok(created) => Ok(Packed(created.fs, WalkInputs(created.fs, cwd, inputs, created.file)))
  }

  /** Packing `a + b` writes the entries of `a`, then those of `b`. */
  lemma {:induction false} WalkInputsAppend(fs: FS, cwd: Path, a: seq<Name>, b: seq<Name>, archive: Path)
    requires WF(fs) && IsDirKey(fs, cwd)
    ensures WalkInputs(fs, cwd, a + b, archive) == WalkInputs(fs, cwd, a, archive) + WalkInputs(fs, cwd, b, archive)
    decreases |a|
  {
    if a == [] {
      assert a + b == b;
    } else {
      var x, rest := a[0], a[1..];
      assert a == [x] + rest;
      assert a + b == [x] + (rest + b);
      var h := WalkInput(fs, cwd, x, archive);
      var t, tb, bb := WalkInputs(fs, cwd, rest, archive), WalkInputs(fs, cwd, rest + b, archive), WalkInputs(fs, cwd, b, archive);
      WalkInputsAppend(fs, cwd, rest, b, archive);
      WalkInputsCons(fs, cwd, x, rest, archive);
      WalkInputsCons(fs, cwd, x, rest + b, archive);
      AppendAssoc(h, t, bb);
    }
  }

  /** Concatenation of entry lists is associative. */
  lemma AppendAssoc(x: seq<Entry>, y: seq<Entry>, z: seq<Entry>)
    ensures x + (y + z) == (x + y) + z
  {
  }

  /** Packing `[x] + rest` writes the entries of `x`, then those of `rest`. */
  lemma WalkInputsCons(fs: FS, cwd: Path, x: Name, rest: seq<Name>, archive: Path)
    requires WF(fs) && IsDirKey(fs, cwd)
    ensures WalkInputs(fs, cwd, [x] + rest, archive) == WalkInput(fs, cwd, x, archive) + WalkInputs(fs, cwd, rest, archive)
  {
    assert ([x] + rest)[0] == x && ([x] + rest)[1..] == rest;
  }

  /** An input that `Lstat` cannot find (once the archive file exists) is
      skipped without an error. */
  lemma TarSkipsMissing(fs: FS, current: Path, work: Path, inputs: seq<Name>, archive: Name, missing: Name)
    requires WF(fs) && Probes.IsDir(fs, current) && Probes.IsDir(fs, work)
    requires CreateArchive(fs, Resolve(fs, work, true).value, archive).Ok?
    requires var cwd := Resolve(fs, work, true).value;
             var fs' := CreateArchive(fs, cwd, archive).value.fs;
             var l := ResolveFrom(fs', Base(cwd, missing), missing.path, MaxSymlinkHops, false);
             l.Err? || l.value !in fs'
    ensures Tar(fs, current, work, inputs + [missing], archive) == Tar(fs, current, work, inputs, archive)
  {
    var cwd := Resolve(fs, work, true).value;
    var c := CreateArchive(fs, cwd, archive).value;
    assert WalkInputs(c.fs, cwd, inputs + [missing], c.file) == WalkInputs(c.fs, cwd, inputs, c.file) by {
      WalkInputsAppend(c.fs, cwd, inputs, [missing], c.file);
      assert WalkInputs(c.fs, cwd, [missing], c.file) == [];
      assert WalkInputs(c.fs, cwd, inputs, c.file) + [] == WalkInputs(c.fs, cwd, inputs, c.file);
    }
  }
}

=== FILE: probes.dfy ===
/**
 The filesystem probes of `utils/util.go`: pure queries that callers and the
 archive code use to check paths before acting on them.
 */
module Probes {
  import opened FileSystem
  import Walk

  /** `FileExists`: `os.Stat` succeeds, so a link counts only when what it
      points at exists. On a path without links, existence is membership in
      the filesystem. */
  function FileExists(fs: FS, p: Path): (b: bool)
    requires WF(fs)
    ensures b <==> Stat(fs, p).Ok?
    ensures Plain(fs, p) ==> (b <==> p in fs)
  {
    ResolvePlain(fs, p, true);
    Stat(fs, p).Ok?
  }

  /** A dangling link does not exist for `FileExists`, while `Lstat` sees it. */
  lemma FileExistsDanglingLink(fs: FS, p: Path)
    requires WF(fs) && p in fs && fs[p].Symlink?
    requires var t := fs[p].target; Plain(fs, t) && t !in fs
    ensures !FileExists(fs, p)
    ensures Lstat(fs, p) == Ok(fs[p])
  {
    var t := fs[p].target;
    FollowLink(fs, p);
    assert [] + t == t;
    ResolvePlainFrom(fs, [], t, MaxSymlinkHops - 1, true);
    LstatKey(fs, p);
  }

  /** The size the model reports for an object: a file's byte count; a
      directory's size is filesystem-dependent and reported as 0. */
  function Size(n: Node): nat
  {
    if n.File? then |n.content| else 0
  }

  /** `GetFileSize`: the size of the object `p` reaches, or an error naming
      `p` when it does not exist. */
  function GetFileSize(fs: FS, p: Path): (r: Result<nat>)
    requires WF(fs)
    ensures r.Err? <==> !FileExists(fs, p)
    ensures r.Err? ==> r.error == NotExist(p)
    ensures r.Ok? ==> Stat(fs, p).Ok? && (Stat(fs, p).value.File? ==> r.value == |Stat(fs, p).value.content|)
  {
    var st := Stat(fs, p);
    if st.Err? then Err(NotExist(p)) else Ok(Size(st.value))
  }

  lemma GetFileSizePlain(fs: FS, p: Path)
    requires WF(fs) && Plain(fs, p)
    ensures p !in fs ==> GetFileSize(fs, p) == Err(NotExist(p))
    ensures p in fs && fs[p].File? ==> GetFileSize(fs, p) == Ok(|fs[p].content|)
  {
    ResolvePlain(fs, p, true);
  }

  /** `IsSymbolLink`: whether `p` itself (not what it points at) is a link;
      fails when `Lstat` cannot find it. For an object of the filesystem the
      answer is the kind of its own node. */
  function IsSymbolLink(fs: FS, p: Path): (r: Result<bool>)
    requires WF(fs)
    ensures r.Err? <==> Lstat(fs, p).Err?
    ensures r.Err? ==> r.error == LstatFailed(p, Lstat(fs, p).error)
    ensures r.Ok? ==> var l := Resolve(fs, p, false);
                      l.Ok? && l.value in fs && r.value == fs[l.value].Symlink?
    ensures p in fs ==> r == Ok(fs[p].Symlink?)
    ensures Plain(fs, p) && p !in fs ==> r.Err?
  {
    LstatKey(fs, p);
    ResolvePlain(fs, p, false);
    match Lstat(fs, p)
    case Err(e) => Err(LstatFailed(p, e))
    case Ok(n) => Ok(n.Symlink?)
  }

  /** `IsDir`: whether `p` reaches a directory; every failure reads as false.
      On a path without links, it is true exactly for a directory of the
      filesystem. */
  function IsDir(fs: FS, p: Path): (b: bool)
    requires WF(fs)
    ensures b <==> Stat(fs, p).Ok? && Stat(fs, p).value.Dir?
    ensures Plain(fs, p) ==> (b <==> p in fs && fs[p].Dir?)
  {
    ResolvePlain(fs, p, true);
    var st := Stat(fs, p);
    st.Ok? && st.value.Dir?
  }

  /** The paths of `w` (relative to `q`) whose object is not a directory,
      joined onto `dir`. */
  function NonDirs(fs: FS, dir: Path, q: Path, w: seq<Path>): (r: seq<Path>)
    requires forall x :: x in w ==> q + x in fs
    requires Walk.Distinct(w)
    ensures forall x :: x in r ==> exists rel :: rel in w && x == dir + rel && !fs[q + rel].Dir?
    ensures forall rel :: rel in w && !fs[q + rel].Dir? ==> dir + rel in r
    ensures Walk.Distinct(r)
  {
    if w == [] then []
    else
      var head := if fs[q + w[0]].Dir? then [] else [dir + w[0]];
      var tail := NonDirs(fs, dir, q, w[1..]);
      assert forall rel :: rel in w[1..] ==> rel in w;
      assert forall rel :: rel in w ==> rel == w[0] || rel in w[1..];
      assert dir + w[0] !in tail by {
        if dir + w[0] in tail {
          var rel :| rel in w[1..] && dir + w[0] == dir + rel && !fs[q + rel].Dir?;
          PrefixCancel(dir, w[0], rel);
        }
      }
      ConsDistinct(head, tail);
      head + tail
  }

  /** At most one new path in front of distinct paths that do not hold it. */
  lemma ConsDistinct(head: seq<Path>, tail: seq<Path>)
    requires |head| <= 1 && Walk.Distinct(tail)
    requires forall x :: x in head ==> x !in tail
    ensures Walk.Distinct(head + tail)
  {
    var r := head + tail;
    forall i, j | 0 <= i < j < |r|
      ensures r[i] != r[j]
    {
      if i < |head| {
        assert r[i] in head && r[j] == tail[j - |head|];
      } else {
        assert r[i] == tail[i - |head|] && r[j] == tail[j - |head|];
      }
    }
  }

  /** `GetFilesInDir`: every object below `dir` (and `dir` itself when it is
      not a directory) that `Lstat` does not report as a directory, in walk
      order. Links, including links to directories, are listed. */
  function GetFilesInDir(fs: FS, dir: Path): (r: Result<seq<Path>>)
    requires WF(fs)
    ensures r.Err? <==> !FileExists(fs, dir)
    ensures r.Err? ==> r.error == NotExist(dir)
    ensures r.Ok? ==> Resolve(fs, dir, false).Ok? && Resolve(fs, dir, false).value in fs
    ensures r.Ok? ==>
              var q := Resolve(fs, dir, false).value;
              forall x :: x in r.value <==>
                exists rel :: q + rel in fs && !fs[q + rel].Dir? && x == dir + rel
    ensures r.Ok? ==> Walk.Distinct(r.value)
  {
    if !FileExists(fs, dir) then Err(NotExist(dir))
    else
      FollowFindsImpliesLookupFinds(fs, [], dir, MaxSymlinkHops);
      var q := Resolve(fs, dir, false).value;
      var w := Walk.Walk(fs, q);
      forall rel | q + rel in fs
        ensures rel in w
      {
        Walk.WalkExactly(fs, q, rel);
      }
      Ok(NonDirs(fs, dir, q, w))
  }

  /** Listing an object of the filesystem by its own path yields exactly the
      non-directories at or below it. */
  lemma GetFilesInDirKey(fs: FS, dir: Path)
    requires WF(fs) && dir in fs && !fs[dir].Symlink?
    ensures GetFilesInDir(fs, dir).Ok?
    ensures forall x :: x in GetFilesInDir(fs, dir).value <==> x in fs && dir <= x && !fs[x].Dir?
  {
    StatKey(fs, dir);
    LstatKey(fs, dir);
    var files := GetFilesInDir(fs, dir).value;
    forall x
      ensures x in files <==> x in fs && dir <= x && !fs[x].Dir?
    {
      if x in fs && dir <= x {
        assert x == dir + x[|dir|..];
      }
    }
  }

  /** A link whose target exists is listed as itself, even when it points at
      a directory: the walk does not follow it, so nothing below the target
      is listed. */
  lemma GetFilesInDirLink(fs: FS, dir: Path)
    requires WF(fs) && dir in fs && fs[dir].Symlink? && FileExists(fs, dir)
    ensures GetFilesInDir(fs, dir) == Ok([dir])
  {
    LstatKey(fs, dir);
    assert Walk.Walk(fs, dir) == [[]];
    assert dir + [] == dir;
    assert NonDirs(fs, dir, dir, [[]]) == [dir];
  }

  /** Every path `GetFilesInDir` lists can be `Lstat`ed, and is not a
      directory there: the names it builds lead back to the objects found. */
  lemma GetFilesInDirLstat(fs: FS, dir: Path)
    requires WF(fs) && GetFilesInDir(fs, dir).Ok?
    ensures forall x :: x in GetFilesInDir(fs, dir).value ==> Lstat(fs, x).Ok? && !Lstat(fs, x).value.Dir?
  {
    var q := Resolve(fs, dir, false).value;
    forall x | x in GetFilesInDir(fs, dir).value
      ensures Lstat(fs, x).Ok? && !Lstat(fs, x).value.Dir?
    {
      var rel :| q + rel in fs && !fs[q + rel].Dir? && x == dir + rel;
      if rel == [] {
        assert x == dir && q + rel == q;
      } else {
        ListedResolves(fs, dir, q, rel);
      }
    }
  }

  lemma ListedResolves(fs: FS, dir: Path, q: Path, rel: Path)
    requires WF(fs) && Resolve(fs, dir, false) == Ok(q) && rel != [] && q + rel in fs
    ensures Resolve(fs, dir + rel, false) == Ok(q + rel)
  {
    assert IsDirKey(fs, q) by {
      AncestorDir(fs, q + rel, |q|);
      assert (q + rel)[..|q|] == q;
    }
    ResolveAppend(fs, [], dir, rel, MaxSymlinkHops, false, q);
    var h: nat :| h <= MaxSymlinkHops && ResolveFrom(fs, [], dir + rel, MaxSymlinkHops, false) == ResolveFrom(fs, q, rel, h, false);
    KeyAncestors(fs, q + rel);
    ResolveThroughDirs(fs, q, rel, h, false);
  }
}

=== FILE: roundtrip.dfy ===
/**
 Packing and unpacking fit together: a directory tree without symbolic
 links below the working directory, packed whole by `Tar` (input ".", which
 names every entry relative to the working directory) and extracted by
 `traversePackagedFile` into an empty directory of another filesystem,
 reappears there exactly — every directory and file, with its content and
 mode — and nothing outside the destination changes, provided the archive
 file lies outside the working directory. When it lies below, the walk
 stops at the archive file, and what reappears is exactly what the walk
 visited up to it (`RoundTripCut`).

 Links are excluded because extracting one reaches beyond it: the `Chmod`
 that follows the new link sets mode 0777 on the link's target, wherever
 that lies (`PackedLinkChmodsTarget`).

 The tar encoder and decoder are not part of this model; the entries `Tar`
 writes are taken to be the entries the tar reader hands back.
 */
module RoundTrip {
  import opened FileSystem
  import Walk
  import Probes
  import opened Extraction
  import opened Pack

  /** The destination after the first `i` objects of the walk `w` of `work`
      were copied below `dst` (the walk's root, `dst` itself, is never
      copied). */
  ghost function Mirror(fs: FS, dst: Path, src: FS, work: Path, w: seq<Path>, i: nat): FS
    requires i <= |w| && forall r :: r in w ==> work + r in src
    decreases i
  {
    if i == 0 then fs
    else
      var prev := Mirror(fs, dst, src, work, w, i - 1);
      var r := w[i - 1];
      if r == [] then prev else prev[dst + r := src[work + r]]
  }

  /** `k` is the copy of one of the first `i` non-root paths of `w`. */
  ghost predicate CopiedKey(dst: Path, w: seq<Path>, i: nat, k: Path)
    requires i <= |w|
  {
    exists j :: 0 <= j < i && w[j] != [] && k == dst + w[j]
  }

  /** The first `i` copies hold the old objects and one key per copy. */
  lemma {:induction false} MirrorKeys(fs: FS, dst: Path, src: FS, work: Path, w: seq<Path>, i: nat, k: Path)
    requires i <= |w| && forall r :: r in w ==> work + r in src
    ensures k in Mirror(fs, dst, src, work, w, i) <==> k in fs || CopiedKey(dst, w, i, k)
    decreases i
  {
    if i > 0 {
      MirrorKeys(fs, dst, src, work, w, i - 1, k);
      if CopiedKey(dst, w, i, k) && !CopiedKey(dst, w, i - 1, k) {
        var j :| 0 <= j < i && w[j] != [] && k == dst + w[j];
        assert j == i - 1;
      }
      if w[i - 1] != [] && k == dst + w[i - 1] {
        assert CopiedKey(dst, w, i, k);
      }
    }
  }

  /** The old objects are untouched by the copies. */
  lemma {:induction false} MirrorOld(fs: FS, dst: Path, src: FS, work: Path, w: seq<Path>, i: nat, k: Path)
    requires i <= |w| && forall r :: r in w ==> work + r in src
    requires (forall x :: x in fs ==> !(dst < x)) && k in fs
    ensures k in Mirror(fs, dst, src, work, w, i) && Mirror(fs, dst, src, work, w, i)[k] == fs[k]
    decreases i
  {
    if i > 0 {
      MirrorOld(fs, dst, src, work, w, i - 1, k);
      if w[i - 1] != [] {
        assert dst < dst + w[i - 1];
      }
    }
  }

  /** Each copy holds the object it copies. */
  lemma {:induction false} MirrorCopy(fs: FS, dst: Path, src: FS, work: Path, w: seq<Path>, i: nat, j: nat)
    requires i <= |w| && (forall r :: r in w ==> work + r in src) && Walk.Distinct(w)
    requires j < i && w[j] != []
    ensures dst + w[j] in Mirror(fs, dst, src, work, w, i)
    ensures Mirror(fs, dst, src, work, w, i)[dst + w[j]] == src[work + w[j]]
    decreases i
  {
    if j < i - 1 {
      MirrorCopy(fs, dst, src, work, w, i - 1, j);
      if w[i - 1] != [] {
        PrefixCancel(dst, w[j], w[i - 1]);
      }
    }
  }

  /** No object at or below `work` is a symbolic link. */
  ghost predicate NoLinksBelow(src: FS, work: Path)
  {
    forall k :: k in src && work <= k ==> !src[k].Symlink?
  }

  /** After any number of copies, a path at or below `dst` meets no link:
      above and at `dst` lie the old directories, below it only copies of
      link-free objects. */
  lemma MirrorPlain(fs: FS, dst: Path, src: FS, work: Path, w: seq<Path>, i: nat, p: Path)
    requires i <= |w| && (forall r :: r in w ==> work + r in src) && Walk.Distinct(w)
    requires NoLinksBelow(src, work)
    requires WF(fs) && IsDirKey(fs, dst) && (forall k :: k in fs ==> !(dst < k)) && dst <= p
    ensures Plain(Mirror(fs, dst, src, work, w, i), p)
  {
    var m := Mirror(fs, dst, src, work, w, i);
    forall j | 0 <= j <= |p| && p[..j] in m
      ensures !m[p[..j]].Symlink?
    {
      var k := p[..j];
      MirrorKeys(fs, dst, src, work, w, i, k);
      if j <= |dst| {
        assert k == dst[..j];
        assert !(dst < k);
        MirrorOld(fs, dst, src, work, w, i, k);
        KeyAncestors(fs, dst);
        if j < |dst| {
          assert IsDirKey(fs, dst[..j]);
        } else {
          assert k == dst;
        }
      } else {
        assert dst < k by {
          assert k[..|dst|] == p[..|dst|] == dst;
        }
        var c :| 0 <= c < i && w[c] != [] && k == dst + w[c];
        MirrorCopy(fs, dst, src, work, w, i, c);
        assert w[c] in w;
        assert work <= work + w[c];
      }
    }
  }

  /** The next copy's slot is still free. */
  lemma MirrorFresh(fs: FS, dst: Path, src: FS, work: Path, w: seq<Path>, i: nat)
    requires i < |w| && (forall r :: r in w ==> work + r in src) && Walk.Distinct(w)
    requires (forall k :: k in fs ==> !(dst < k)) && w[i] != []
    ensures dst + w[i] !in Mirror(fs, dst, src, work, w, i)
  {
    var p := dst + w[i];
    MirrorKeys(fs, dst, src, work, w, i, p);
    assert dst < p;
    if CopiedKey(dst, w, i, p) {
      var j :| 0 <= j < i && w[j] != [] && p == dst + w[j];
      PrefixCancel(dst, w[j], w[i]);
    }
  }

  /** What the proof uses of a walk of `work`: the root first, parents before
      children, no path twice, every path an object. */
  ghost predicate WalkShape(src: FS, work: Path, w: seq<Path>)
  {
    && |w| > 0 && w[0] == []
    && Walk.ParentsFirst(w) && Walk.Distinct(w)
    && forall r :: r in w ==> work + r in src
  }

  /** The next copy's parent is already a directory: the destination itself
      or the copy of a directory reported earlier by the walk. */
  lemma MirrorParentDir(fs: FS, dst: Path, src: FS, work: Path, w: seq<Path>, i: nat)
    requires WF(src) && IsDirKey(src, work) && WalkShape(src, work, w)
    requires IsDirKey(fs, dst) && forall k :: k in fs ==> !(dst < k)
    requires i < |w| && w[i] != []
    ensures IsDirKey(Mirror(fs, dst, src, work, w, i), Parent(dst + w[i]))
  {
    var r := w[i];
    assert w[i] in w;
    ParentAppend(dst, r);
    ParentAppend(work, r);
    assert IsDirKey(src, work + Parent(r));
    assert i > 0;
    assert Parent(w[i]) in w[..i];
    var j :| 0 <= j < i && w[j] == Parent(r);
    if Parent(r) == [] {
      assert dst + Parent(r) == dst;
      MirrorOld(fs, dst, src, work, w, i, dst);
    } else {
      MirrorCopy(fs, dst, src, work, w, i, j);
    }
  }

  /** Applying the `i`-th entry to the first `i` copies adds the next copy. */
  lemma MirrorStep(fs: FS, dst: Path, src: FS, work: Path, w: seq<Path>, i: nat)
    requires WF(src) && NoLinksBelow(src, work) && IsDirKey(src, work) && WalkShape(src, work, w)
    requires WF(fs) && IsDirKey(fs, dst) && forall k :: k in fs ==> !(dst < k)
    requires i < |w| && WF(Mirror(fs, dst, src, work, w, i))
    ensures ApplyEntry(Mirror(fs, dst, src, work, w, i), dst, HeaderOf([] + w[i], src[work + w[i]])) ==
              Outcome(Mirror(fs, dst, src, work, w, i + 1), Success)
  {
    var m := Mirror(fs, dst, src, work, w, i);
    var r := w[i];
    assert r in w;
    assert [] + r == r;
    if r == [] {
      assert dst + r == dst && work + r == work;
      MirrorOld(fs, dst, src, work, w, i, dst);
      StatKey(m, dst);
    } else {
      var p := dst + r;
      MirrorFresh(fs, dst, src, work, w, i);
      MirrorParentDir(fs, dst, src, work, w, i);
      MirrorPlain(fs, dst, src, work, w, i, p);
      assert work <= work + r;
      match src[work + r]
      case Dir(mode) =>
        DirectoryFresh(m, p, mode);
      case File(c, mode) =>
        RegularPlain(m, p, c, mode);
    }
  }

  /** The first `i` entries of the packed walk `w` leave exactly the first
      `i` copies. */
  lemma {:induction false} MirrorPrefix(fs: FS, dst: Path, src: FS, work: Path, w: seq<Path>, i: nat)
    requires WF(src) && NoLinksBelow(src, work) && IsDirKey(src, work) && WalkShape(src, work, w)
    requires WF(fs) && IsDirKey(fs, dst) && forall k :: k in fs ==> !(dst < k)
    requires i <= |w|
    ensures ApplyAll(fs, dst, Headers(src, work, [], w)[..i]) == Outcome(Mirror(fs, dst, src, work, w, i), Success)
    decreases i
  {
    if i == 0 {
      assert Headers(src, work, [], w)[..0] == [];
    } else {
      MirrorPrefix(fs, dst, src, work, w, i - 1);
      var es := Headers(src, work, [], w);
      ApplyAllSnoc(fs, dst, es, i);
      assert WF(Mirror(fs, dst, src, work, w, i - 1));
      assert es[i - 1] == HeaderOf([] + w[i - 1], src[work + w[i - 1]]);
      MirrorStep(fs, dst, src, work, w, i - 1);
    }
  }

  /** After the first `n` copies, a path below `dst` exists exactly when it
      is one of the first `n` paths of the walk, holding the object it
      copies. */
  lemma MirrorAt(fs: FS, dst: Path, src: FS, work: Path, w: seq<Path>, n: nat, rel: Path)
    requires n <= |w| && (forall r :: r in w ==> work + r in src) && Walk.Distinct(w)
    requires (forall k :: k in fs ==> !(dst < k)) && rel != []
    ensures var m := Mirror(fs, dst, src, work, w, n);
            && (dst + rel in m <==> rel in w[..n])
            && (rel in w[..n] ==> m[dst + rel] == src[work + rel])
  {
    assert dst < dst + rel;
    MirrorKeys(fs, dst, src, work, w, n, dst + rel);
    if rel in w[..n] {
      var j :| 0 <= j < n && w[..n][j] == rel;
      MirrorCopy(fs, dst, src, work, w, n, j);
    }
    if CopiedKey(dst, w, n, dst + rel) {
      var j :| 0 <= j < n && w[j] != [] && dst + rel == dst + w[j];
      PrefixCancel(dst, rel, w[j]);
      assert w[..n][j] == rel;
    }
  }

  /** Extracting the entries of a leading part `u` of the walk of `work`
      into the empty directory `dst` copies exactly the objects of `u` there
      and changes nothing else. */
  lemma ExtractWalkPrefix(src: FS, work: Path, fs: FS, dst: Path, u: seq<Path>)
    requires WF(src) && NoLinksBelow(src, work) && IsDirKey(src, work)
    requires WF(fs) && IsDirKey(fs, dst) && forall k :: k in fs ==> !(dst < k)
    requires u <= Walk.Walk(src, work)
    ensures var r := TraversePackagedFile(fs, dst, Stream(Headers(src, work, [], u), EndOfArchive));
            && r.status == Success
            && (forall rel :: rel != [] ==> (dst + rel in r.fs <==> rel in u))
            && (forall rel :: rel != [] && rel in u ==> r.fs[dst + rel] == src[work + rel])
            && (forall k :: k in fs ==> k in r.fs && r.fs[k] == fs[k])
            && (forall k :: k in r.fs && k !in fs ==> dst < k)
  {
    var w := Walk.Walk(src, work);
    var n := |u|;
    assert u == w[..n];
    assert WalkShape(src, work, w);
    ExtractMirror(src, work, fs, dst, w, n);
    MirrorSummary(fs, dst, src, work, w, n);
  }

  /** Extracting the entries of the first `n` paths of a walk performs the
      first `n` copies. */
  lemma ExtractMirror(src: FS, work: Path, fs: FS, dst: Path, w: seq<Path>, n: nat)
    requires WF(src) && NoLinksBelow(src, work) && IsDirKey(src, work) && WalkShape(src, work, w)
    requires WF(fs) && IsDirKey(fs, dst) && forall k :: k in fs ==> !(dst < k)
    requires n <= |w|
    ensures TraversePackagedFile(fs, dst, Stream(Headers(src, work, [], w[..n]), EndOfArchive))
            == Outcome(Mirror(fs, dst, src, work, w, n), Success)
  {
    MirrorPrefix(fs, dst, src, work, w, n);
    assert Headers(src, work, [], w[..n]) == Headers(src, work, [], w)[..n];
  }

  /** The first `n` copies hold exactly the first `n` objects of the walk
      below `dst`, keep the old keys and add nothing outside `dst`. */
  lemma MirrorSummary(fs: FS, dst: Path, src: FS, work: Path, w: seq<Path>, n: nat)
    requires n <= |w| && (forall r :: r in w ==> work + r in src) && Walk.Distinct(w)
    requires forall k :: k in fs ==> !(dst < k)
    ensures var m := Mirror(fs, dst, src, work, w, n);
            && (forall rel :: rel != [] ==> (dst + rel in m <==> rel in w[..n]))
            && (forall rel :: rel != [] && rel in w[..n] ==> m[dst + rel] == src[work + rel])
            && (forall k :: k in fs ==> k in m && m[k] == fs[k])
            && (forall k :: k in m && k !in fs ==> dst < k)
  {
    var m := Mirror(fs, dst, src, work, w, n);
    forall rel | rel != []
      ensures dst + rel in m <==> rel in w[..n]
      ensures rel in w[..n] ==> m[dst + rel] == src[work + rel]
    {
      MirrorAt(fs, dst, src, work, w, n, rel);
    }
    forall k | k in fs
      ensures k in m && m[k] == fs[k]
    {
      MirrorOld(fs, dst, src, work, w, n, k);
    }
    forall k | k in m && k !in fs
      ensures dst < k
    {
      MirrorKeys(fs, dst, src, work, w, n, k);
      var j :| 0 <= j < n && w[j] != [] && k == dst + w[j];
    }
  }

  /** Extracting the whole walk of `work` into the empty directory `dst`
      copies the tree there. */
  lemma ExtractWalk(src: FS, work: Path, fs: FS, dst: Path)
    requires WF(src) && NoLinksBelow(src, work) && IsDirKey(src, work)
    requires WF(fs) && IsDirKey(fs, dst) && forall k :: k in fs ==> !(dst < k)
    ensures var r := TraversePackagedFile(fs, dst, Stream(Headers(src, work, [], Walk.Walk(src, work)), EndOfArchive));
            && r.status == Success
            && (forall rel :: rel != [] ==> (dst + rel in r.fs <==> work + rel in src))
            && (forall rel :: rel != [] && work + rel in src ==> r.fs[dst + rel] == src[work + rel])
            && (forall k :: k in fs ==> k in r.fs && r.fs[k] == fs[k])
            && (forall k :: k in r.fs && k !in fs ==> dst < k)
  {
    var w := Walk.Walk(src, work);
    ExtractWalkPrefix(src, work, fs, dst, w);
    forall rel | rel != []
      ensures rel in w <==> work + rel in src
    {
      Walk.WalkExactly(src, work, rel);
    }
  }

  /** Packing a whole working directory (input ".") writes one entry per
      object below it, named relative to it, in walk order up to the archive
      file; the walk sees the filesystem with the archive file created. */
  lemma PackWhole(src: FS, current: Path, work: Path, archive: Name)
    requires WF(src) && IsDirKey(src, work) && Probes.IsDir(src, current)
    requires CreateArchive(src, work, archive).Ok?
    ensures var c := CreateArchive(src, work, archive).value;
            Tar(src, current, work, [Relative([])], archive) ==
              Ok(Packed(c.fs, Headers(c.fs, work, [], UntilArchive(work, Walk.Walk(c.fs, work), c.file))))
  {
    StatKey(src, work);
  }

  /** Creating the archive file adds no link. */
  lemma CreatedNoLinks(src: FS, work: Path, archive: Name)
    requires WF(src) && IsDirKey(src, work) && NoLinksBelow(src, work)
    requires CreateArchive(src, work, archive).Ok?
    ensures NoLinksBelow(CreateArchive(src, work, archive).value.fs, work)
  {
    var c := CreateArchive(src, work, archive).value;
    forall k | k in c.fs && work <= k
      ensures !c.fs[k].Symlink?
    {
      if k != c.file {
        assert k in src && c.fs[k] == src[k];
      }
    }
  }

  /** The round trip: pack the whole working directory `work` of `src` into
      an archive file outside it, extract into the empty directory `dst` of
      `fs`; the tree of `src` below `work` reappears below `dst`, node for
      node, and nothing else changes. */
  lemma RoundTrip(src: FS, current: Path, work: Path, archive: Name, fs: FS, dst: Path)
    requires WF(src) && NoLinksBelow(src, work) && IsDirKey(src, work) && Probes.IsDir(src, current)
    requires CreateArchive(src, work, archive).Ok? && !(work <= CreateArchive(src, work, archive).value.file)
    requires WF(fs) && IsDirKey(fs, dst) && forall k :: k in fs ==> !(dst < k)
    ensures Tar(src, current, work, [Relative([])], archive).Ok?
    ensures var packed := Tar(src, current, work, [Relative([])], archive).value;
            var r := TraversePackagedFile(fs, dst, Stream(packed.entries, EndOfArchive));
            && r.status == Success
            && (forall rel :: rel != [] ==> (dst + rel in r.fs <==> work + rel in src))
            && (forall rel :: rel != [] && work + rel in src ==> r.fs[dst + rel] == src[work + rel])
            && (forall k :: k in fs ==> k in r.fs && r.fs[k] == fs[k])
            && (forall k :: k in r.fs && k !in fs ==> dst < k)
  {
    var c := CreateArchive(src, work, archive).value;
    PackWhole(src, current, work, archive);
    CreatedNoLinks(src, work, archive);
    UntilArchiveMisses(c.fs, work, c.file);
    ExtractWalk(c.fs, work, fs, dst);
    forall rel | rel != []
      ensures work + rel in c.fs <==> work + rel in src
      ensures work + rel in src ==> c.fs[work + rel] == src[work + rel]
    {
      assert work <= work + rel;
    }
  }

  /** The archive file below the working directory: the walk stops at it,
      so what reappears below `dst` is exactly what was packed — the objects
      the walk visits up to and including the archive file, which comes
      last. */
  lemma RoundTripCut(src: FS, current: Path, work: Path, archive: Name, fs: FS, dst: Path)
    requires WF(src) && NoLinksBelow(src, work) && IsDirKey(src, work) && Probes.IsDir(src, current)
    requires CreateArchive(src, work, archive).Ok? && work <= CreateArchive(src, work, archive).value.file
    requires WF(fs) && IsDirKey(fs, dst) && forall k :: k in fs ==> !(dst < k)
    ensures Tar(src, current, work, [Relative([])], archive).Ok?
    ensures var packed := Tar(src, current, work, [Relative([])], archive).value;
            var a := CreateArchive(src, work, archive).value.file;
            var r := TraversePackagedFile(fs, dst, Stream(packed.entries, EndOfArchive));
            && r.status == Success
            && |packed.entries| > 0 && packed.entries[|packed.entries| - 1].name == a[|work|..]
            && (forall rel :: rel != [] ==> (dst + rel in r.fs <==> exists e :: e in packed.entries && e.name == rel))
            && (forall rel :: rel != [] && dst + rel in r.fs ==> work + rel in packed.fs && r.fs[dst + rel] == packed.fs[work + rel])
            && (forall k :: k in fs ==> k in r.fs && r.fs[k] == fs[k])
            && (forall k :: k in r.fs && k !in fs ==> dst < k)
  {
    var c := CreateArchive(src, work, archive).value;
    PackWhole(src, current, work, archive);
    CreatedNoLinks(src, work, archive);
    ExtractCut(c.fs, work, c.file, fs, dst);
  }

  /** Extracting the walk of `work` cut at the archive file `a` below it
      into the empty directory `dst` copies exactly the objects whose entries
      were written, the archive's last. */
  lemma ExtractCut(pfs: FS, work: Path, a: Path, fs: FS, dst: Path)
    requires WF(pfs) && NoLinksBelow(pfs, work) && IsDirKey(pfs, work) && work <= a && a in pfs
    requires WF(fs) && IsDirKey(fs, dst) && forall k :: k in fs ==> !(dst < k)
    ensures var es := Headers(pfs, work, [], UntilArchive(work, Walk.Walk(pfs, work), a));
            var r := TraversePackagedFile(fs, dst, Stream(es, EndOfArchive));
            && r.status == Success
            && |es| > 0 && es[|es| - 1].name == a[|work|..]
            && (forall rel :: rel != [] ==> (dst + rel in r.fs <==> exists e :: e in es && e.name == rel))
            && (forall rel :: rel != [] && dst + rel in r.fs ==> work + rel in pfs && r.fs[dst + rel] == pfs[work + rel])
            && (forall k :: k in fs ==> k in r.fs && r.fs[k] == fs[k])
            && (forall k :: k in r.fs && k !in fs ==> dst < k)
  {
    var w := Walk.Walk(pfs, work);
    var u := UntilArchive(work, w, a);
    UntilArchiveHits(pfs, work, a);
    Walk.PrefixShape(w, u);
    ExtractWalkPrefix(pfs, work, fs, dst, u);
    EntryNames(pfs, work, u);
  }

  /** The entries for a walk from "." are named by the walk's paths. */
  lemma EntryNames(fs: FS, q: Path, u: seq<Path>)
    requires |u| > 0 && forall r :: r in u ==> q + r in fs
    ensures var es := Headers(fs, q, [], u);
            && es[|es| - 1].name == u[|u| - 1]
            && forall rel :: rel in u <==> exists e :: e in es && e.name == rel
  {
    var es := Headers(fs, q, [], u);
    assert es[|es| - 1].name == [] + u[|u| - 1] == u[|u| - 1];
    forall rel
      ensures rel in u <==> exists e :: e in es && e.name == rel
    {
      if rel in u {
        var i :| 0 <= i < |u| && u[i] == rel;
        assert es[i].name == [] + u[i];
      }
      if exists e :: e in es && e.name == rel {
        var e :| e in es && e.name == rel;
        var i :| 0 <= i < |es| && es[i] == e;
        assert [] + u[i] == u[i];
      }
    }
  }

  /** Why links are left out of the round trip: a packed link extracted at a
      free slot whose target exists sets the target's mode to 0777, wherever
      the target lies. */
  lemma PackedLinkChmodsTarget(fs: FS, dst: Path, name: Path, target: Path)
    requires WF(fs) && NoLinks(fs) && dst + name != [] && dst + name !in fs
    requires IsDirKey(fs, Parent(dst + name)) && target in fs
    ensures var r := ApplyEntry(fs, dst, HeaderOf(name, Symlink(target)));
            r.status == Success && target in r.fs && r.fs[target] == WithMode(fs[target], LinkMode)
  {
    SymlinkFresh(fs, dst + name, target, LinkMode);
  }
}

=== FILE: unpack.dfy ===
/**
 `UnTar`, `DeCompressGzip` and `DeCompressBzip2` of `utils/util.go`: the
 three share their checks and differ only in the decoder placed in front of
 the tar reader.

 In order: the archive must exist for `FileExists`; the destination must be
 a directory, or be missing (then `MkdirAll` creates it with mode 0755);
 then the archive is opened and its entries are extracted by
 `traversePackagedFile`.

 The decoders are parameters: a function from the archive's bytes to the
 stream of entries the tar reader will hand out. The gzip reader checks its
 header when it is created, so a bad header fails before any entry is
 extracted; the plain tar reader and the bzip2 reader only fail while
 entries are read, which the stream records as a `ReadError` end.
 */
module Unpack {
  import opened FileSystem
  import Probes
  import opened Extraction

  /** 0755, the mode of a destination directory that has to be created. */
  const DestinationMode: Mode := 0x1ED

  /** The bytes the readers see once the archive is opened: a file's
      content; reading from a directory fails. */
  function ReadArchive(fs: FS, archive: Path): (r: Result<Bytes>)
    requires WF(fs) && Probes.FileExists(fs, archive)
    ensures Stat(fs, archive).value.File? ==> r == Ok(Stat(fs, archive).value.content)
    ensures Stat(fs, archive).value.Dir? ==> r == Err(PathError(archive, EISDIR))
  {
    match Stat(fs, archive).value
    case File(content, _) => Ok(content)
    case Dir(_) => Err(PathError(archive, EISDIR))
  }

  /** Makes sure `dst` is a directory: kept when it is one, created when
      `Stat` reports it missing, an error otherwise. */
  function PrepareDestination(fs: FS, dst: Path): (r: Outcome)
    requires WF(fs)
    ensures WF(r.fs) && AddsDirs(fs, r.fs, DestinationMode) && KindsKept(fs, r.fs)
    ensures r.status.Success? ==> Probes.IsDir(r.fs, dst)
    ensures Probes.IsDir(fs, dst) ==> r == Outcome(fs, Success)
    ensures Stat(fs, dst).Ok? && !Stat(fs, dst).value.Dir? ==> r == Outcome(fs, Failure(ExistsNotDirectory(dst)))
    ensures Stat(fs, dst).Err? && Stat(fs, dst).error.errno != ENOENT ==> r == Outcome(fs, Failure(Stat(fs, dst).error))
    ensures Stat(fs, dst).Err? && Stat(fs, dst).error.errno == ENOENT ==>
              var m := MkdirAll(fs, dst, DestinationMode);
              r.fs == m.fs && r.status == (if m.status.Success? then Success else Failure(MkdirFailed(dst, m.status.error)))
  {
    match Stat(fs, dst)
    case Ok(n) =>
      if n.Dir? then Outcome(fs, Success) else Outcome(fs, Failure(ExistsNotDirectory(dst)))
    case Err(e) =>
      if e.errno == ENOENT then
        var o := MkdirAll(fs, dst, DestinationMode);
        if o.status.Failure? then Outcome(o.fs, Failure(MkdirFailed(dst, o.status.error))) else o
      else Outcome(fs, Failure(e))
  }

  /** The shared body; `open` turns the archive's bytes into entries, or
      rejects them before any entry is read. */
  function Unpack(fs: FS, archive: Path, dst: Path, open: Bytes -> Result<Stream>): (r: Outcome)
    requires WF(fs)
    ensures WF(r.fs) && KindsKept(fs, r.fs)
    ensures !Probes.FileExists(fs, archive) ==> r == Outcome(fs, Failure(NotExist(archive)))
    ensures Probes.FileExists(fs, archive) && Stat(fs, dst).Ok? && !Stat(fs, dst).value.Dir? ==>
              r == Outcome(fs, Failure(ExistsNotDirectory(dst)))
    ensures r.status.Success? ==> Probes.FileExists(fs, archive) && Probes.IsDir(r.fs, dst)
    ensures Probes.FileExists(fs, archive) && PrepareDestination(fs, dst).status.Failure? ==>
              r == PrepareDestination(fs, dst)
    ensures Probes.FileExists(fs, archive) && Stat(fs, archive).value.File? && PrepareDestination(fs, dst).status.Success? ==>
              var o := PrepareDestination(fs, dst);
              r == match open(Stat(fs, archive).value.content)
                   case Err(e) => Outcome(o.fs, Failure(e))
                   case Ok(s) => TraversePackagedFile(o.fs, dst, s)
  {
    if !Probes.FileExists(fs, archive) then Outcome(fs, Failure(NotExist(archive)))
    else
      var o := PrepareDestination(fs, dst);
      if o.status.Failure? then o
      else
        StatKept(fs, o.fs, archive);
        ArchiveKept(fs, o.fs, archive);
        match ReadArchive(o.fs, archive)
        case Err(e) => Outcome(o.fs, Failure(e))
        case Ok(bytes) =>
          match open(bytes)
          case Err(e) => Outcome(o.fs, Failure(e))
          case Ok(s) =>
            var r := TraversePackagedFile(o.fs, dst, s);
            StatKept(o.fs, r.fs, dst);
            KindsKeptTransitive(fs, o.fs, r.fs);
            r
  }

  /** `UnTar`: the tar reader reads the archive as it is. */
  function UnTar(fs: FS, archive: Path, dst: Path, untar: Bytes -> Stream): (r: Outcome)
    requires WF(fs)
    ensures WF(r.fs) && KindsKept(fs, r.fs)
    ensures !Probes.FileExists(fs, archive) ==> r == Outcome(fs, Failure(NotExist(archive)))
    ensures Probes.FileExists(fs, archive) && Stat(fs, dst).Ok? && !Stat(fs, dst).value.Dir? ==>
              r == Outcome(fs, Failure(ExistsNotDirectory(dst)))
    ensures r.status.Success? ==> Probes.FileExists(fs, archive) && Probes.IsDir(r.fs, dst)
    ensures Probes.FileExists(fs, archive) && Stat(fs, archive).value.File? && PrepareDestination(fs, dst).status.Success? ==>
              r == TraversePackagedFile(PrepareDestination(fs, dst).fs, dst, untar(Stat(fs, archive).value.content))
  {
    Unpack(fs, archive, dst, (b: Bytes) => Ok(untar(b)))
  }

  /** `DeCompressGzip`: `gunzip` yields an error when the gzip header is
      rejected, and otherwise the tar entries of the decompressed data. */
  function DeCompressGzip(fs: FS, archive: Path, dst: Path, gunzip: Bytes -> Result<Stream>): (r: Outcome)
    requires WF(fs)
    ensures WF(r.fs) && KindsKept(fs, r.fs)
    ensures !Probes.FileExists(fs, archive) ==> r == Outcome(fs, Failure(NotExist(archive)))
    ensures Probes.FileExists(fs, archive) && Stat(fs, dst).Ok? && !Stat(fs, dst).value.Dir? ==>
              r == Outcome(fs, Failure(ExistsNotDirectory(dst)))
    ensures r.status.Success? ==> Probes.FileExists(fs, archive) && Probes.IsDir(r.fs, dst)
    ensures Probes.FileExists(fs, archive) && Stat(fs, archive).value.File? && PrepareDestination(fs, dst).status.Success? ==>
              var o := PrepareDestination(fs, dst);
              r == match gunzip(Stat(fs, archive).value.content)
                   case Err(e) => Outcome(o.fs, Failure(e))
                   case Ok(s) => TraversePackagedFile(o.fs, dst, s)
  {
    Unpack(fs, archive, dst, gunzip)
  }

  /** `DeCompressBzip2`: the bzip2 reader reports its errors only while
      entries are read. */
  function DeCompressBzip2(fs: FS, archive: Path, dst: Path, bunzip2: Bytes -> Stream): (r: Outcome)
    requires WF(fs)
    ensures WF(r.fs) && KindsKept(fs, r.fs)
    ensures !Probes.FileExists(fs, archive) ==> r == Outcome(fs, Failure(NotExist(archive)))
    ensures Probes.FileExists(fs, archive) && Stat(fs, dst).Ok? && !Stat(fs, dst).value.Dir? ==>
              r == Outcome(fs, Failure(ExistsNotDirectory(dst)))
    ensures r.status.Success? ==> Probes.FileExists(fs, archive) && Probes.IsDir(r.fs, dst)
    ensures Probes.FileExists(fs, archive) && Stat(fs, archive).value.File? && PrepareDestination(fs, dst).status.Success? ==>
              r == TraversePackagedFile(PrepareDestination(fs, dst).fs, dst, bunzip2(Stat(fs, archive).value.content))
  {
    Unpack(fs, archive, dst, (b: Bytes) => Ok(bunzip2(b)))
  }

  /** Preparing the destination touches no file: an archive file reads the
      same bytes afterwards. */
  lemma ArchiveKept(fs: FS, fs': FS, archive: Path)
    requires WF(fs) && WF(fs') && AddsDirs(fs, fs', DestinationMode) && KindsKept(fs, fs')
    requires Stat(fs, archive).Ok?
    ensures Stat(fs, archive).value.File? ==> Stat(fs', archive) == Stat(fs, archive)
  {
    ResolveKept(fs, fs', [], archive, MaxSymlinkHops, true);
  }

  /** With an existing archive file and an existing destination directory,
      unpacking is exactly extracting the decoded stream into `dst`. */
  lemma UnpackReady(fs: FS, archive: Path, dst: Path, open: Bytes -> Result<Stream>)
    requires WF(fs) && Probes.FileExists(fs, archive) && Stat(fs, archive).value.File? && Probes.IsDir(fs, dst)
    ensures var bytes := Stat(fs, archive).value.content;
            Unpack(fs, archive, dst, open) ==
              match open(bytes)
              case Err(e) => Outcome(fs, Failure(e))
              case Ok(s) => TraversePackagedFile(fs, dst, s)
  {
  }

  /** A rejected gzip header fails before any entry is extracted: the only
      effect is the destination directory. */
  lemma GzipHeaderRejected(fs: FS, archive: Path, dst: Path, gunzip: Bytes -> Result<Stream>)
    requires WF(fs) && Probes.FileExists(fs, archive) && Stat(fs, archive).value.File?
    requires gunzip(Stat(fs, archive).value.content).Err?
    ensures var r := DeCompressGzip(fs, archive, dst, gunzip);
            r.fs == PrepareDestination(fs, dst).fs && r.status.Failure?
  {
    var o := PrepareDestination(fs, dst);
    if o.status.Success? {
      StatKept(fs, o.fs, archive);
      assert Stat(o.fs, archive) == Stat(fs, archive) by {
        ResolveKept(fs, o.fs, [], archive, MaxSymlinkHops, true);
      }
    }
  }

  /** The three formats differ only in their decoder: when the bzip2 and
      gzip decoders deliver the same stream the tar reader would, the
      outcome is the same. */
  lemma FormatsAgree(fs: FS, archive: Path, dst: Path, untar: Bytes -> Stream,
                     gunzip: Bytes -> Result<Stream>, bunzip2: Bytes -> Stream)
    requires WF(fs)
    requires forall b :: gunzip(b) == Ok(untar(b)) && bunzip2(b) == untar(b)
    ensures DeCompressGzip(fs, archive, dst, gunzip) == UnTar(fs, archive, dst, untar)
    ensures DeCompressBzip2(fs, archive, dst, bunzip2) == UnTar(fs, archive, dst, untar)
  {
    var tar := (b: Bytes) => Ok(untar(b));
    assert forall b :: gunzip(b) == tar(b);
    assert forall b :: ((b: Bytes) => Ok(bunzip2(b)))(b) == tar(b);
  }

  /** Reading a directory as an archive fails after the destination is
      prepared. */
  lemma ArchiveIsDirectory(fs: FS, archive: Path, dst: Path, open: Bytes -> Result<Stream>)
    requires WF(fs) && Probes.IsDir(fs, archive)
    ensures var r := Unpack(fs, archive, dst, open);
            r.fs == PrepareDestination(fs, dst).fs && r.status.Failure?
  {
    var o := PrepareDestination(fs, dst);
    if o.status.Success? {
      StatKept(fs, o.fs, archive);
    }
  }

  /** Where every existing prefix of `dst` is a directory, preparing it
      succeeds: the prefixes all end up directories, new ones with mode
      0755, and nothing is created off the path. */
  lemma PrepareDestinationPlain(fs: FS, dst: Path)
    requires WF(fs) && DirsAlong(fs, dst)
    ensures MkdirsAlong(fs, PrepareDestination(fs, dst), dst)
  {
    DirsAlongPlain(fs, dst);
    if dst in fs {
      assert dst[..|dst|] == dst;
      StatKey(fs, dst);
      KeyAncestors(fs, dst);
    } else {
      ResolvePlain(fs, dst, true);
      StatAlongDirs(fs, dst);
      MkdirAllPlain(fs, dst, DestinationMode);
    }
  }

  /** Once the destination is prepared, it stays a directory whatever the
      extraction does afterwards, even when it fails. */
  lemma DestinationSurvives(fs: FS, archive: Path, dst: Path, open: Bytes -> Result<Stream>)
    requires WF(fs) && Probes.FileExists(fs, archive) && PrepareDestination(fs, dst).status.Success?
    ensures Probes.IsDir(Unpack(fs, archive, dst, open).fs, dst)
  {
    var o := PrepareDestination(fs, dst);
    StatKept(fs, o.fs, archive);
    var r := Unpack(fs, archive, dst, open);
    assert KindsKept(o.fs, r.fs) by {
      if ReadArchive(o.fs, archive).Ok? && open(ReadArchive(o.fs, archive).value).Ok? {
        assert r == TraversePackagedFile(o.fs, dst, open(ReadArchive(o.fs, archive).value).value);
      } else {
        assert r.fs == o.fs;
      }
    }
    StatKept(o.fs, r.fs, dst);
  }
}

=== FILE: walk.dfy ===
/**
 Go's `filepath.Walk` over the abstract filesystem: a pre-order traversal that
 reports the root first, then each entry of a directory in sorted name order,
 descending into directories but never through symbolic links.

 The walk starts at an object `q` of the filesystem (the object `Lstat` finds
 for the root path) and yields the path of every visited object relative to
 `q`; the caller joins those onto the root path it passed in.
 */
module Walk {
  import opened FileSystem
  import Lexical

  /** The objects at or below `q`. */
  ghost function Descendants(fs: FS, q: Path): set<Path>
  {
    set p | p in fs && q <= p
  }

  /** The names inside directory `q`. */
  function Children(fs: FS, q: Path): set<string>
  {
    set p | p in fs && |p| == |q| + 1 && q <= p :: p[|q|]
  }

  lemma ChildBelow(fs: FS, q: Path, n: string)
    requires q in fs && n in Children(fs, q)
    ensures q + [n] in fs
    ensures Descendants(fs, q + [n]) < Descendants(fs, q)
  {
    var p :| p in fs && |p| == |q| + 1 && q <= p && p[|q|] == n;
    assert p == q + [n];
    forall d | d in Descendants(fs, q + [n])
      ensures d in Descendants(fs, q)
    {
      assert d[..|q|] == (q + [n])[..|q|];
    }
    assert q in Descendants(fs, q);
    assert q !in Descendants(fs, q + [n]);
  }

  /** Every path after the first has its parent somewhere before it. */
  ghost predicate ParentsFirst(w: seq<Path>)
  {
    forall i {:trigger Parent(w[i])} :: 0 < i < |w| ==> Parent(w[i]) in w[..i]
  }

  /** Like `ParentsFirst`, for the walk below a directory, whose top-level
      names have their parent (the directory itself) outside the sequence. */
  ghost predicate ParentsFirstBelow(w: seq<Path>)
  {
    forall i {:trigger Parent(w[i])} :: 0 <= i < |w| ==> |w[i]| == 1 || Parent(w[i]) in w[..i]
  }

  ghost predicate Distinct(w: seq<Path>)
  {
    forall i, j :: 0 <= i < j < |w| ==> w[i] != w[j]
  }

  /** A walk cut short is still a walk: parents first and no path twice. */
  lemma PrefixShape(w: seq<Path>, u: seq<Path>)
    requires u <= w && ParentsFirst(w) && Distinct(w)
    ensures ParentsFirst(u) && Distinct(u)
    ensures forall r :: r in u ==> r in w
  {
    assert u == w[..|u|];
    forall i | 0 < i < |u|
      ensures Parent(u[i]) in u[..i]
    {
      assert u[..i] == w[..i];
      assert Parent(w[i]) in w[..i];
    }
  }

  /** The paths `filepath.Walk` reports below and including `q`, relative to
      `q`, in visiting order. */
  function Walk(fs: FS, q: Path): (w: seq<Path>)
    requires q in fs
    ensures |w| > 0 && w[0] == []
    ensures forall r :: r in w ==> q + r in fs
    ensures ParentsFirst(w)
    ensures Distinct(w)
    decreases Descendants(fs, q), 1
  {
    var below := if fs[q].Dir? then WalkChildren(fs, q, Children(fs, q)) else [];
    RootThenBelow(below);
    assert q + [] == q;
    [[]] + below
  }

  lemma RootThenBelow(below: seq<Path>)
    requires forall r :: r in below ==> |r| > 0
    requires ParentsFirstBelow(below) && Distinct(below)
    ensures ParentsFirst([[]] + below) && Distinct([[]] + below)
  {
    var w := [[]] + below;
    forall i | 0 < i < |w|
      ensures Parent(w[i]) in w[..i]
    {
      assert w[i] == below[i - 1];
      assert w[..i] == [[]] + below[..i - 1];
      if |w[i]| == 1 {
        assert Parent(w[i]) == [];
      }
    }
    forall i, j | 0 <= i < j < |w|
      ensures w[i] != w[j]
    {
      assert w[j] == below[j - 1];
      if i > 0 {
        assert w[i] == below[i - 1];
      }
    }
  }

  /** The walks below the names `names` of directory `q`, in sorted order,
      each path prefixed by its top-level name. */
  function WalkChildren(fs: FS, q: Path, names: set<string>): (w: seq<Path>)
    requires q in fs && names <= Children(fs, q)
    ensures forall r :: r in w ==> |r| > 0 && r[0] in names && q + r in fs
    ensures ParentsFirstBelow(w)
    ensures Distinct(w)
    decreases Descendants(fs, q), 0, names
  {
    if names == {} then []
    else
      var n := Lexical.Least(names);
      ChildBelow(fs, q, n);
      var first := Under(n, Walk(fs, q + [n]));
      var rest := WalkChildren(fs, q, names - {n});
      UnderInside(fs, q, n, Walk(fs, q + [n]));
      ConcatBelow(first, rest);
      ConcatDistinct(first, rest, n);
      first + rest
  }

  lemma UnderInside(fs: FS, q: Path, n: string, w: seq<Path>)
    requires |w| > 0 && w[0] == [] && ParentsFirst(w) && Distinct(w)
    requires forall r :: r in w ==> q + [n] + r in fs
    ensures forall r :: r in Under(n, w) ==> |r| > 0 && r[0] == n && q + r in fs
  {
    var u := Under(n, w);
    forall i | 0 <= i < |u|
      ensures |u[i]| > 0 && u[i][0] == n && q + u[i] in fs
    {
      assert w[i] in w;
      assert q + u[i] == q + [n] + w[i];
    }
  }

  /** Each path of `w` prefixed by the name `n`. */
  function Under(n: string, w: seq<Path>): (u: seq<Path>)
    requires |w| > 0 && w[0] == [] && ParentsFirst(w) && Distinct(w)
    ensures |u| == |w|
    ensures forall i :: 0 <= i < |w| ==> u[i] == [n] + w[i]
    ensures ParentsFirstBelow(u)
    ensures Distinct(u)
  {
    var u := seq(|w|, i requires 0 <= i < |w| => [n] + w[i]);
    forall i | 0 <= i < |u| && |u[i]| != 1
      ensures Parent(u[i]) in u[..i]
    {
      assert i > 0;
      var j :| 0 <= j < i && w[j] == Parent(w[i]);
      assert u[j] == Parent(u[i]);
    }
    forall i, j | 0 <= i < j < |u|
      ensures u[i] != u[j]
    {
      assert u[i][1..] == w[i] && u[j][1..] == w[j];
    }
    u
  }

  lemma ConcatBelow(a: seq<Path>, b: seq<Path>)
    requires ParentsFirstBelow(a) && ParentsFirstBelow(b)
    ensures ParentsFirstBelow(a + b)
  {
    var w := a + b;
    forall i | |a| <= i < |w| && |w[i]| != 1
      ensures Parent(w[i]) in w[..i]
    {
      assert w[i] == b[i - |a|];
      assert w[..i] == a + b[..i - |a|];
    }
    forall i | 0 <= i < |a| && |w[i]| != 1
      ensures Parent(w[i]) in w[..i]
    {
      assert w[..i] == a[..i];
    }
  }

  lemma ConcatDistinct(a: seq<Path>, b: seq<Path>, n: string)
    requires Distinct(a) && Distinct(b)
    requires forall r :: r in a ==> |r| > 0 && r[0] == n
    requires forall r :: r in b ==> |r| > 0 && r[0] != n
    ensures Distinct(a + b)
  {
    var w := a + b;
    forall i, j | 0 <= i < j < |w|
      ensures w[i] != w[j]
    {
      if j >= |a| {
        assert w[j] == b[j - |a|];
        if i >= |a| {
          assert w[i] == b[i - |a|];
        } else {
          assert w[i] == a[i];
        }
      }
    }
  }

  /** Every object at or below `q` is reported. */
  lemma {:induction false} WalkComplete(fs: FS, q: Path, r: Path)
    requires WF(fs) && q in fs && q + r in fs
    ensures r in Walk(fs, q)
    decreases |r|
  {
    if r != [] {
      var n := r[0];
      FirstStep(fs, q, r);
      assert q + [n] + r[1..] == q + r;
      WalkComplete(fs, q + [n], r[1..]);
      WalkChildrenHas(fs, q, Children(fs, q), n, r[1..]);
      assert r == [n] + r[1..];
      assert Walk(fs, q) == [[]] + WalkChildren(fs, q, Children(fs, q));
    }
  }

  /** The first step from `q` towards an object below it is a directory
      entry of `q`. */
  lemma FirstStep(fs: FS, q: Path, r: Path)
    requires WF(fs) && q in fs && q + r in fs && r != []
    ensures fs[q].Dir? && r[0] in Children(fs, q) && q + [r[0]] in fs
  {
    var p := q + r;
    var c := q + [r[0]];
    assert c == p[..|q| + 1];
    assert q == p[..|q|];
    AncestorDir(fs, p, |q|);
    if |r| > 1 {
      AncestorDir(fs, p, |q| + 1);
      assert c in fs;
    } else {
      assert c == p;
    }
    ChildName(fs, q, r[0]);
  }

  lemma ChildName(fs: FS, q: Path, n: string)
    requires q + [n] in fs
    ensures n in Children(fs, q)
  {
    var c := q + [n];
    assert c[..|q|] == q;
    assert c[|q|] == n;
  }

  lemma {:induction false} WalkChildrenHas(fs: FS, q: Path, names: set<string>, n: string, r: Path)
    requires q in fs && names <= Children(fs, q) && n in names
    requires q + [n] in fs && r in Walk(fs, q + [n])
    ensures [n] + r in WalkChildren(fs, q, names)
    decreases names
  {
    var m := Lexical.Least(names);
    ChildBelow(fs, q, m);
    var first := Under(m, Walk(fs, q + [m]));
    var rest := WalkChildren(fs, q, names - {m});
    assert WalkChildren(fs, q, names) == first + rest;
    if m == n {
      var i :| 0 <= i < |Walk(fs, q + [n])| && Walk(fs, q + [n])[i] == r;
      assert first[i] == [n] + r;
    } else {
      WalkChildrenHas(fs, q, names - {m}, n, r);
    }
  }

  /** A walk reports exactly the objects at or below where it starts. */
  lemma WalkExactly(fs: FS, q: Path, r: Path)
    requires WF(fs) && q in fs
    ensures r in Walk(fs, q) <==> q + r in fs
  {
    if q + r in fs {
      WalkComplete(fs, q, r);
    }
  }
  /** `a` comes no later than `b` in the order `filepath.Walk` visits paths:
      `a` is a prefix of `b`, or at the first segment where they differ,
      `a`'s segment sorts first. */
  predicate Before(a: Path, b: Path)
  {
    |a| == 0 || (|b| > 0 && (if a[0] == b[0] then Before(a[1..], b[1..]) else Lexical.Below(a[0], b[0])))
  }

  /** A common leading part does not change the order. */
  lemma {:induction false} BeforeAppend(p: Path, a: Path, b: Path)
    ensures Before(p + a, p + b) == Before(a, b)
    decreases |p|
  {
    if |p| > 0 {
      assert (p + a)[1..] == p[1..] + a && (p + b)[1..] == p[1..] + b;
      BeforeAppend(p[1..], a, b);
    } else {
      assert p + a == a && p + b == b;
    }
  }

  /** Every path comes before every later path. */
  ghost predicate Sorted(w: seq<Path>)
  {
    forall i, j :: 0 <= i < j < |w| ==> Before(w[i], w[j])
  }

  lemma UnderSorted(n: string, w: seq<Path>)
    requires |w| > 0 && w[0] == [] && ParentsFirst(w) && Distinct(w) && Sorted(w)
    ensures Sorted(Under(n, w))
  {
    var u := Under(n, w);
    forall i, j | 0 <= i < j < |u|
      ensures Before(u[i], u[j])
    {
      BeforeAppend([n], w[i], w[j]);
    }
  }

  lemma ConcatSorted(a: seq<Path>, b: seq<Path>)
    requires Sorted(a) && Sorted(b)
    requires forall x, y :: x in a && y in b ==> Before(x, y)
    ensures Sorted(a + b)
  {
    var w := a + b;
    forall i, j | 0 <= i < j < |w|
      ensures Before(w[i], w[j])
    {
      if j < |a| {
        assert w[i] == a[i] && w[j] == a[j];
      } else if i >= |a| {
        assert w[i] == b[i - |a|] && w[j] == b[j - |a|];
      } else {
        assert w[i] == a[i] && w[j] == b[j - |a|];
      }
    }
  }

  /** The walk visits paths in sorted order. */
  lemma {:induction false} WalkSorted(fs: FS, q: Path)
    requires q in fs
    ensures Sorted(Walk(fs, q))
    decreases Descendants(fs, q), 1
  {
    var below := if fs[q].Dir? then WalkChildren(fs, q, Children(fs, q)) else [];
    if fs[q].Dir? {
      WalkChildrenSorted(fs, q, Children(fs, q));
    }
    assert Walk(fs, q) == [[]] + below;
    ConcatSorted([[]], below);
  }

  lemma {:induction false} WalkChildrenSorted(fs: FS, q: Path, names: set<string>)
    requires q in fs && names <= Children(fs, q)
    ensures Sorted(WalkChildren(fs, q, names))
    decreases Descendants(fs, q), 0, names
  {
    if names != {} {
      var n := Lexical.Least(names);
      ChildBelow(fs, q, n);
      var sub := Walk(fs, q + [n]);
      var first := Under(n, sub);
      var rest := WalkChildren(fs, q, names - {n});
      assert WalkChildren(fs, q, names) == first + rest;
      WalkSorted(fs, q + [n]);
      UnderSorted(n, sub);
      WalkChildrenSorted(fs, q, names - {n});
      UnderInside(fs, q, n, sub);
      forall x, y | x in first && y in rest
        ensures Before(x, y)
      {
        assert x[0] == n && y[0] in names - {n};
      }
      ConcatSorted(first, rest);
    }
  }

  lemma {:induction false} BeforeAntisymmetric(a: Path, b: Path)
    requires Before(a, b) && Before(b, a)
    ensures a == b
    decreases |a|
  {
    if |a| > 0 {
      if a[0] == b[0] {
        BeforeAntisymmetric(a[1..], b[1..]);
        assert a == [a[0]] + a[1..] && b == [b[0]] + b[1..];
      } else {
        Lexical.Antisymmetric(a[0], b[0]);
      }
    }
  }

  /** Whatever lies between a path and one below it lies below it too. */
  lemma {:induction false} BeforeBetween(a: Path, b: Path, c: Path)
    requires Before(a, b) && Before(b, c) && a <= c
    ensures a <= b
    decreases |a|
  {
    if |a| > 0 {
      assert c[0] == a[0];
      if a[0] != b[0] {
        if b[0] != c[0] {
          Lexical.Antisymmetric(a[0], b[0]);
        }
      } else {
        assert a[1..] <= c[1..];
        BeforeBetween(a[1..], b[1..], c[1..]);
        assert a == [a[0]] + a[1..] && b == [b[0]] + b[1..];
      }
    }
  }

  /** Where two ordered paths first differ, the earlier one's segment sorts
      first. */
  lemma {:induction false} BeforeFirstDifference(a: Path, b: Path, m: nat)
    requires Before(a, b) && m < |a| && m < |b| && a[..m] == b[..m] && a[m] != b[m]
    ensures Lexical.Below(a[m], b[m])
    decreases m
  {
    if m > 0 {
      assert a[0] == a[..m][0] == b[..m][0] == b[0];
      assert a[1..][..m - 1] == a[1..m] == b[1..m] == b[1..][..m - 1];
      BeforeFirstDifference(a[1..], b[1..], m - 1);
    }
  }

  /** In a sorted sequence, whatever lies between a path and one below it
      lies below it too. */
  lemma SortedContiguous(w: seq<Path>)
    requires Sorted(w)
    ensures forall i, j, k :: 0 <= i < j < k < |w| && w[i] <= w[k] ==> w[i] <= w[j]
  {
    forall i, j, k | 0 <= i < j < k < |w| && w[i] <= w[k]
      ensures w[i] <= w[j]
    {
      BeforeBetween(w[i], w[j], w[k]);
    }
  }

  /** In a sorted sequence, where two paths first differ the earlier one's
      segment sorts first. */
  lemma SortedSiblings(w: seq<Path>)
    requires Sorted(w)
    ensures forall i, j, m :: 0 <= i < j < |w| && 0 <= m < |w[i]| && m < |w[j]| && w[i][..m] == w[j][..m] && w[i][m] != w[j][m] ==>
              Lexical.Below(w[i][m], w[j][m])
  {
    forall i, j, m | 0 <= i < j < |w| && 0 <= m < |w[i]| && m < |w[j]| && w[i][..m] == w[j][..m] && w[i][m] != w[j][m]
      ensures Lexical.Below(w[i][m], w[j][m])
    {
      BeforeFirstDifference(w[i], w[j], m);
    }
  }

  /** The order of `filepath.Walk`: depth first, each directory's subtree one
      contiguous block right after the directory, and the entries of a
      directory in sorted name order. */
  lemma WalkOrder(fs: FS, q: Path)
    requires q in fs
    ensures var w := Walk(fs, q);
            && (forall i, j, k :: 0 <= i < j < k < |w| && w[i] <= w[k] ==> w[i] <= w[j])
            && (forall i, j, m :: 0 <= i < j < |w| && 0 <= m < |w[i]| && m < |w[j]| && w[i][..m] == w[j][..m] && w[i][m] != w[j][m] ==>
                  Lexical.Below(w[i][m], w[j][m]))
  {
    WalkSorted(fs, q);
    SortedContiguous(Walk(fs, q));
    SortedSiblings(Walk(fs, q));
  }

  /** Two sorted sequences without repeats that hold the same paths are
      equal. */
  lemma {:induction false} SortedUnique(v: seq<Path>, w: seq<Path>)
    requires Sorted(v) && Distinct(v) && Sorted(w) && Distinct(w)
    requires forall r :: r in v <==> r in w
    ensures v == w
    decreases |v|
  {
    if w != [] {
      assert w[0] in w;
    }
    if v != [] {
      assert v[0] in w;
      assert w != [] && w[0] in v;
      var i :| 0 <= i < |w| && w[i] == v[0];
      var j :| 0 <= j < |v| && v[j] == w[0];
      if i > 0 { assert Before(w[0], w[i]); }
      if j > 0 { assert Before(v[0], v[j]); }
      if v[0] != w[0] {
        BeforeAntisymmetric(v[0], w[0]);
      }
      forall r
        ensures r in v[1..] <==> r in w[1..]
      {
        if r in v[1..] {
          var a :| 1 <= a < |v| && v[a] == r;
          assert r != v[0];
          assert r in w;
        }
        if r in w[1..] {
          var b :| 1 <= b < |w| && w[b] == r;
          assert r != w[0];
          assert r in v;
        }
      }
      SortedUnique(v[1..], w[1..]);
      assert v == [v[0]] + v[1..] && w == [w[0]] + w[1..];
    }
  }

  /** The walk is the one sorted enumeration, without repeats, of the objects
      at or below where it starts. */
  lemma WalkUnique(fs: FS, q: Path, v: seq<Path>)
    requires WF(fs) && q in fs
    requires Sorted(v) && Distinct(v) && forall r :: r in v <==> q + r in fs
    ensures v == Walk(fs, q)
  {
    WalkSorted(fs, q);
    forall r
      ensures r in v <==> r in Walk(fs, q)
    {
      WalkExactly(fs, q, r);
    }
    SortedUnique(v, Walk(fs, q));
  }
}
